=== FILE: README.md ===
# Reminder bot: a verified model of its scheduling core

`bot.py` is a Telegram bot that reminds a chat of a task on chosen days of
the month at chosen hours. Around the Telegram handlers sits a small amount
of scheduling logic, and this project models it as pure Dafny functions over
explicit inputs:

- **Reading user input** (`Input`). The dates step takes a single day, a comma
  list or an inclusive range `A-B`. The times step always takes a comma list.
  Out-of-range values are dropped in order. A token `int()` rejects, or a list
  with nothing left in range, keeps the conversation at the same step.
- **Fire times** (`Calendar`). `datetime(year, month, day, hour)` fails on a
  day the month lacks. A slot that has already passed this month rolls over to
  the next month, with December rolling into January.
- **The creation loop** (`Creation`). One record and one job for every
  (day, hour) pair, days outer and hours inner. The records are appended to
  the chat's list and the store is saved.
- **The store** (`Reminders`): `reminders_db` as a map from chat to its list
  of records, plus the job queue.
  - `/myreminders` sorts a chat's list in place by its stamp text.
  - `/delete k` pops record k and cancels every job named by its id.
  - Startup keeps only future records and reschedules them.
- **The stamp format** (`Stamp`): `%Y-%m-%d %H:%M:%S`, written when a reminder
  is created and read back when listing and at startup.
- **The string builtins** (`Text`) that these steps use: `strip`, `split`,
  `int` and `str`, and string comparison.

The bot's state is `Bot(db, saved, jobs)`:

- `db` is the store in memory.
- `saved` is the store as last written by `save_reminders`.
- `jobs` is the job queue in scheduling order.

A reminder's id `f"{chat_id}_{timestamp}"` is modelled as the pair `Id(owner, fireAt)`.

Two properties tie the parts together. Both are proved for all inputs.

- **Listing order is time order.** Listing sorts by the stamp text, and string
  order on stamps the bot writes is time order (`Stamp.FormatOrder`). So
  listing shows the records chronologically, and the sort is stable.
- **Every pending job can be reached** (`Reminders.Backed`). Each pending job
  has a record with its name in the chat it will be sent to, so `/myreminders`
  shows it and `/delete` can cancel it. Listing, deleting, startup and the
  all-or-nothing creation step all preserve this.

Two behaviours of the code are easy to misread, and the model follows the
code in both:

- **A failing pair abandons the whole batch.** A `ValueError` on any pair is
  caught once, around the whole loop (bot.py:214-216), so the rest of the
  batch is abandoned and nothing is saved. Records appended to a chat that
  already had a list stay in memory, because `chat_reminders` is that very
  list object. A new chat's records are dropped. Jobs already scheduled stay
  scheduled. See "Findings".
- **Delete uses the last listing's order.** `/myreminders` sorts the stored
  list object itself (bot.py:240), so a `/delete k` issued right after a
  listing removes the record shown on line k (`Reminders.DeleteShown`). It does
  not use insertion order.

The conversation's times step is modelled twice:

- `Conversation.TimesStep` is the step as written, on top of the loop
  `Creation.Create`. The method `Creation.CreateReminders` implements that loop.
- `Conversation.TimesStepAtomic` is the corrected step, on top of the
  all-or-nothing `Creation.CreateAtomic`.

## Model

| member | source | states |
|---|---|---|
| `Text.Strip` | bot.py:102 | The result is a contiguous middle part of the text, with no whitespace at either end, and only whitespace is cut off on each side. |
| `Text.StripKeeps` | bot.py:102 | A text with no whitespace at either end is unchanged by stripping. |
| `Text.Split` | bot.py:112 | Splitting yields at least one piece, and no piece contains the separator. |
| `Text.JoinSplit` | bot.py:112 | Joining the pieces back with the separator gives the original text, so splitting loses nothing. |
| `Text.SplitJoin` | bot.py:112 | Splitting a join of separator-free pieces gives those pieces back, empty pieces included. |
| `Text.SplitFirst` | bot.py:108 | Text before the first separator is the first piece, and the rest is split independently. |
| `Text.SplitNone` | bot.py:115 | Text without the separator splits into itself alone. |
| `Text.JoinChars` | bot.py:112 | Any property of the separator and of every piece's characters holds of every character of the join. |
| `Text.SplitSep` | bot.py:112 | Text that starts with the separator splits into an empty piece followed by the pieces of the rest. |
| `Text.SplitCons` | bot.py:112 | A first character other than the separator belongs to the first piece. |
| `Text.ParseInt` | bot.py:108 | A successful `int()` saw at least one decimal digit. Around the number it skips only tab, line feed, vertical tab, form feed, carriage return and space, not the separators 0x1c..0x1f that `str.strip()` removes (see ParseIntRejects). |
| `Text.ParseIntDecimal` | bot.py:112 | `int(str(n)) == n` for every integer, negative ones included. |
| `Text.ParseIntRejects` | bot.py:135-137 | A character that is not whitespace `int()` skips, a sign or a digit makes `int()` fail (the `ValueError` path). This includes a separator 0x1c..0x1f, wherever it stands. |
| `Text.NumeralOfDigits` | bot.py:126 | The digits `str(n)` writes read back as n. |
| `Text.Digits` | bot.py:126 | `str(n)` of a natural number is a non-empty run of decimal digits. |
| `Text.StrLessIrreflexive` | bot.py:240 | No string sorts before itself. |
| `Text.StrLessTotal` | bot.py:240 | Any two distinct strings are ordered one way or the other. |
| `Text.StrLessTransitive` | bot.py:240 | String order is transitive. |
| `Text.StrLessAsymmetric` | bot.py:240 | Two strings are never each before the other. |
| `Text.StrLessConcat` | bot.py:240 | Strings that start with equal-width pieces compare by those pieces first, and by the rest only on a tie. |
| `Calendar.DaysInMonth` | bot.py:169 | Every month has between 28 and 31 days. |
| `Calendar.Make` | bot.py:169 | `datetime(...)` succeeds exactly when every field is in range, including the day for that month and year, and then holds those fields. |
| `Calendar.BeforeTotal` | bot.py:170 | Any two date-times are equal or ordered one way or the other. |
| `Calendar.BeforeTransitive` | bot.py:170 | Date-time order is transitive. |
| `Calendar.Resolve` | bot.py:164-176 | A fire time, when there is one, is a real date-time strictly after `now`, on the requested day at the requested hour on the hour, in this month or the next one (January of next year after December). |
| `Calendar.NextMonthIsNext` | bot.py:171-175 | The month the rollover moves to is the earliest month later than the current one. |
| `Calendar.ResolveEarliest` | bot.py:164-176 | No slot with the same day and hour lies between `now` and the chosen fire time: the rollover never skips an existing slot. |
| `Calendar.ResolveFails` | bot.py:169-176 | There is no fire time exactly when this month lacks the day, or when this month's slot is not after `now` and next month's slot cannot be built. |
| `Calendar.ResolveExamples` | bot.py:164-176 | Worked cases: the slot stays this month when ahead and moves when passed or equal to `now`; December rolls into January; 29 February exists only in leap years; day 31 fails from a 30-day month and when rolling into one. |
| `Stamp.Pad2` | bot.py:183 | `%02d` has two digits and reads back as the number. |
| `Stamp.Pad4` | bot.py:183 | `%04d` has four digits and reads back as the number. |
| `Stamp.Format` | bot.py:183 | A written stamp is always 19 characters long. |
| `Stamp.FormatLayout` | bot.py:183 | The position of every field and every separator in a written stamp. |
| `Stamp.Parse` | bot.py:244 | `strptime` succeeds only on stamps that name a real date-time. |
| `Stamp.ParseFormat` | bot.py:316 | Reading back a stamp the bot wrote gives the date-time it was written for. |
| `Stamp.FormatParse` | bot.py:244 | Any stamp that reads back is exactly the text the bot would write for that time: each time has one spelling. |
| `Stamp.Pad2Order` | bot.py:240 | Two-digit fields compare as strings the way their numbers compare. |
| `Stamp.Pad4Order` | bot.py:240 | Four-digit fields compare as strings the way their numbers compare. |
| `Stamp.FieldThen` | bot.py:240 | Equal-width fields followed by the same separator compare by the fields first and the rest only on a tie. |
| `Stamp.FormatOrder` | bot.py:240 | One written stamp sorts before another exactly when its time is earlier. |
| `Stamp.FormatInjective` | bot.py:179-183 | Distinct times are written as distinct stamps. |
| `Seqs.Filter` | bot.py:118 | A list comprehension with a condition keeps only qualifying elements and never grows the list. An element is in the result exactly when it is in the input and qualifies. |
| `Seqs.FilterConcat` | bot.py:118 | Filtering a concatenation filters each part in turn, so order is kept. |
| `Seqs.FilterKeepsAll` | bot.py:118 | When every element qualifies, nothing is dropped. |
| `Seqs.FilterMultiset` | bot.py:269-271 | Filtering keeps every copy of each qualifying element and no copy of any other. |
| `Seqs.RemoveAt` | bot.py:264 | `list.pop(i)` shortens the list by one, keeps the elements before i, and shifts those after i down by one. |
| `Seqs.RemoveKeeps` | bot.py:264 | Popping index i keeps every element that differs from the one at i. |
| `Seqs.RemoveAtMultiset` | bot.py:264 | The popped element and what is left together make up the original list's multiset. |
| `Sorting.Insert` | bot.py:240 | Inserting into a sorted list keeps it sorted, adds exactly that element and grows the list by one. |
| `Sorting.SortBy` | bot.py:240 | `list.sort(key=...)` returns a permutation of its input that is sorted by key. |
| `Sorting.InsertStable` | bot.py:240 | Inserting places the new element behind every element with the same key. |
| `Sorting.SortStable` | bot.py:240 | The sort is stable: for every key, the elements with that key keep their original relative order. |
| `Sorting.SortSorted` | bot.py:240 | Sorting a list that is already sorted leaves it unchanged. |
| `Sorting.SortIdempotent` | bot.py:240 | Sorting twice gives the same as sorting once. |
| `Input.Range` | bot.py:109 | `range(a, b + 1)` has `b - a + 1` elements `a, a+1, ...`, or none when `a > b`. The model builds it for every length; a range too long for Python to build is listed under "Left out". |
| `Input.ParseToken` | bot.py:112 | `int(t.strip())`: a comma token is stripped by `str.strip()` before `int()` reads it. ParseTokenRejects and TokenWithSeparator state what it refuses and what it accepts. |
| `Input.ParseEach` | bot.py:112 | Converting every token succeeds exactly when the converter accepts each token, and yields one number per token. Any failure is `BadFormat`. Both comma branches convert with `ParseToken`. |
| `Input.ParseEachValues` | bot.py:112 | Each converted number is the converter's value for its own token, in token order. |
| `Input.ParseDays` | bot.py:101-122 | The dates step accepts a message exactly when its raw numbers parse and some of them lie in 1..31. It then yields exactly those days, in the order typed, never an empty list. This holds for every range Python can build; the longer ones are listed under "Left out". |
| `Input.RawDays` | bot.py:102-115 | The three readings of a dates message: a range when the stripped text has a dash, a comma list when it has a comma, a single number otherwise. Its contract is carried by RawDaysOfRange, RawDaysOfList, RawDaysOfSingle, their `Fails` counterparts and RawDaysOfRendered. |
| `Input.ParseHours` | bot.py:145-150 | The times step accepts a message exactly when its comma tokens all parse and some lie in 0..23. It then yields exactly the listed numbers that lie in 0..23, in the order listed, repetitions kept; there is at least one. |
| `Input.ParseHoursValue` | bot.py:145-150 | When the comma tokens all parse, the outcome is the in-range hours, or `NoneInRange` when there are none. A refusal of a list that parses is therefore always `NoneInRange`. |
| `Input.RenderShape` | bot.py:112 | A comma-joined list of numbers needs no stripping and splits back into each number's text. Its commas appear exactly when there are two or more numbers, and it has no minus signs when no number is negative. |
| `Input.ParseEachRendered` | bot.py:112 | Converting the texts of a list of numbers gives that list back. |
| `Input.RawDaysOfRange` | bot.py:107-109 | A message whose stripped text has a dash and splits at it into two numbers reads as the inclusive range between them. The two ends are not stripped again. |
| `Input.RawDaysOfList` | bot.py:111-112 | A message whose stripped text has a comma but no dash reads as its comma tokens, each converted by `int(t.strip())`. |
| `Input.RawDaysOfSingle` | bot.py:114-115 | A message whose stripped text has neither a dash nor a comma reads as the single number `int()` makes of that text. |
| `Input.DaysOfRaw` | bot.py:118-122 | The numbers read from the message become the days in 1..31, in order, or `NoneInRange` when none is. |
| `Input.RawDaysOfRangeFails` | bot.py:107-108 | A dash in the message with an end `int()` rejects makes the dates step fail with `BadFormat`. |
| `Input.RawDaysOfListFails` | bot.py:111-112 | A comma list with a token that `int(t.strip())` rejects makes the dates step fail with `BadFormat`. |
| `Input.RawDaysOfSingleFails` | bot.py:114-115 | A single token `int()` rejects makes the dates step fail with `BadFormat`. |
| `Input.RawDaysOfRendered` | bot.py:107-115 | A typed list of non-negative numbers reads back as those numbers, as a single day or a comma list. |
| `Input.DaysOfList` | bot.py:111-122 | A typed day list yields the days in 1..31 in typed order, duplicates kept, or is refused with `NoneInRange` when none is in range. |
| `Input.FilterRange` | bot.py:109-118 | Of a range, exactly the days in 1..31 survive, as a clipped range. |
| `Input.DaysOfRange` | bot.py:107-122 | `A-B` yields the days from A to B inclusive that lie in 1..31. A reversed range, or one wholly outside 1..31, is refused with `NoneInRange`. A range too long for Python to build is listed under "Left out": the model clips it like any other. |
| `Input.HoursOfList` | bot.py:145-150 | A typed hour list yields the hours in 0..23 in typed order, negative ones dropped, or is refused when none is in range. |
| `Input.InSomePiece` | bot.py:112 | Every character other than the separator sits inside one of the pieces. |
| `Input.PieceRejected` | bot.py:112 | A stray character in the message makes `int()` reject the piece that holds it. |
| `Input.ParseTokenRejects` | bot.py:112 | A character that is neither whitespace, a sign nor a digit survives the strip of its token, so `int(t.strip())` rejects the token. |
| `Input.TokenRejected` | bot.py:112 | A stray character that is not whitespace makes `int(t.strip())` reject the comma token that holds it. |
| `Input.DaysRejectStrayCharacter` | bot.py:104-137 | A message with a letter, or any character other than digits, signs, commas and whitespace, is refused by the dates step as `BadFormat`. |
| `Input.RangeRejects` | bot.py:107-108 | A dash message whose stripped text holds a character `int()` neither skips nor reads is refused as `BadFormat`. |
| `Input.ListRejects` | bot.py:111-112 | A comma message, without a dash, whose stripped text holds a character that is not whitespace, a sign, a digit or a comma is refused as `BadFormat`. |
| `Input.HoursRejectStrayCharacter` | bot.py:144-150 | The same holds for the times step. |
| `Input.DaysRejectSeparator` | bot.py:107-108 | In a dash message, a separator 0x1c..0x1f that the first `strip()` does not reach goes to `int()` with its end, so the dates step refuses the message as `BadFormat`. |
| `Input.RangeWithSeparator` | bot.py:107-108 | `A`, a separator 0x1c..0x1f, `-B` is refused as `BadFormat`. For example "1\x1c-3" is refused. |
| `Input.TokenWithSeparator` | bot.py:112 | `int(t.strip())` reads `A` followed by a separator 0x1c..0x1f as A. |
| `Input.ListWithSeparator` | bot.py:111-122 | `A`, a separator 0x1c..0x1f, `,B` names A and B, kept when in 1..31. For example "1\x1c,3" names days 1 and 3. |
| `Reminders.Entry` | bot.py:179-185 | A new record's stamp reads back as its fire time. Its id names the chat and the fire time, and it carries the task and the chat id. |
| `Reminders.Lines` | bot.py:243-246 | Numbering succeeds exactly when every stamp reads back. Line i then carries number `first + i`, the task of record i and its time. |
| `Reminders.List` | bot.py:231-249 | Listing permutes only the listed chat's records, leaving them sorted by stamp; other chats, the saved store and the jobs are untouched. "No reminders" is shown exactly when the chat has none. Shown lines number the sorted records from 1 with their tasks. |
| `Reminders.ListWellFormed` | bot.py:240 | Listing keeps every record well formed. |
| `Reminders.StampOrder` | bot.py:240 | Two stamps that read back compare as text the way their times compare. |
| `Reminders.ListChronological` | bot.py:239-246 | On a well-formed store, listing never fails and shows each line no later than the next. |
| `Reminders.ListStable` | bot.py:240 | Reminders that fire at the same time keep the order they were stored in. |
| `Reminders.ListSortedStore` | bot.py:240 | Listing a chat whose list is already in stamp order leaves the bot unchanged. |
| `Reminders.ListIdempotent` | bot.py:240 | Listing again changes nothing further and shows the same lines. |
| `Reminders.Remove` | bot.py:263-271 | Removing record i changes only that chat's list: i is gone, the others keep their order, and the store is saved. A job stays exactly when it was pending and is not named by the removed id. |
| `Reminders.Delete` | bot.py:252-277 | `/delete` replies "missing number" exactly when there is no argument, and "not a number" exactly when `int()` rejects it. It deletes exactly when the number is in 1..length, removing record k-1 and replying with its task. Every other outcome leaves the bot unchanged. |
| `Reminders.DeleteCancels` | bot.py:268-271 | Deleting removes every copy of every job named by the removed id and keeps every copy of every other job. |
| `Reminders.DeleteWellFormed` | bot.py:263-265 | Deleting keeps the store well formed. |
| `Reminders.DeleteKeepsRest` | bot.py:263-264 | The list after a deletion plus the removed record is the list before it. |
| `Reminders.DeleteShown` | bot.py:240-264 | `/delete k` right after `/myreminders` removes the reminder shown on line k. |
| `Reminders.DeleteCancelsTwin` | bot.py:268-271 | Two records with the same id (days "5,5"): deleting one keeps the other listed, but it has no job left. |
| `Reminders.ReplayOwner` | bot.py:313-327 | Replaying a chat succeeds exactly when all its stamps read back. It then keeps exactly the records after `now`, in order, each with one job for that chat. |
| `Reminders.Reconcile` | bot.py:308-333 | Startup keeps the set of chats. Each chat it visits keeps exactly its future records in order, other chats are untouched, the store is saved, and `loaded_count` equals the number of jobs. |
| `Reminders.ReconcileLast` | bot.py:312-329 | Startup over the chats is the startup over all but the last, followed by the last chat's replay. |
| `Reminders.ReconcileSucceeds` | bot.py:315 | Startup fails (with `ValueError`) exactly when some visited chat holds a stamp that does not read back. |
| `Reminders.ReconcileCounts` | bot.py:318-327 | `loaded_count` is the number of records, over all visited chats, that fire after `now`. |
| `Reminders.ReconcileJobsUpcoming` | bot.py:318-325 | Every job startup schedules fires after `now`. |
| `Reminders.ReconcileSchedules` | bot.py:319-325 | Every record startup keeps has its job: named by its id, at its time, for its chat. |
| `Reminders.ReconcileWellFormed` | bot.py:313-331 | On a well-formed store startup never fails, and the store stays well formed. |
| `Reminders.ReplayKept` | bot.py:318-326 | Replaying the records a replay kept keeps all of them and schedules the same jobs. |
| `Reminders.ReconcileStable` | bot.py:308-333 | Startup over chats that hold only what an earlier startup kept changes none of them, and schedules and counts the same jobs. |
| `Reminders.ReconcileIdempotent` | bot.py:308-333 | Running startup twice at the same moment gives what running it once gives. |
| `Reminders.PermutedNames` | bot.py:240 | A permuted list names the same ids. |
| `Reminders.ListBacked` | bot.py:240 | Listing keeps every pending job reachable. |
| `Reminders.DeleteBacked` | bot.py:260-271 | Deleting keeps every remaining job reachable. |
| `Reminders.BackedGrow` | bot.py:186-194 | Appending records to a chat together with jobs, for that chat, named by those records keeps every job reachable. |
| `Reminders.ReconcileBacked` | bot.py:319-329 | Whatever the store held, every job startup schedules is reachable and belongs to a visited chat. |
| `Creation.Row` | bot.py:162 | The pairs of one day are that day at each hour, in hour order. |
| `Creation.Pairs` | bot.py:161-162 | The pairs in loop order, days outer and hours inner. PairsLength and PairsIndex carry its contract: `len(dates) * len(times)` pairs, pair `a * len(times) + b` being day a at hour b. |
| `Creation.PairsLength` | bot.py:161-162 | A batch has `len(dates) * len(times)` pairs. |
| `Creation.PairsIndex` | bot.py:161-162 | Pair number `a * len(times) + b` is day a at hour b: date-major, hour-minor. |
| `Creation.Occurrences` | bot.py:161-176 | Pair k's fire time is resolved against the k-th clock reading, in pair order. The batch completes exactly when it has a fire time for every pair. An incomplete batch stops at the first pair without one. |
| `Creation.OccurrencesStop` | bot.py:214-216 | Once a pair fails, later pairs never run. |
| `Creation.OccurrencesComplete` | bot.py:161-176 | A batch completes exactly when every pair has a fire time. |
| `Creation.Apply` | bot.py:186-198 | What the pairs that went through leave behind: records, jobs, store write and save. ApplyComplete and ApplyInterrupted carry its contract for a complete and an interrupted batch. |
| `Creation.Create` | bot.py:156-216 | The loop as the bot runs it, from reading the chat's list to saving the store. CreateComplete, CreateStops, CreateInterrupted and CreateApplies carry its contract; CreateReminders proves the nested loop computes it. |
| `Creation.ApplyComplete` | bot.py:186-198 | A completed batch appends one record and one job per fire time, in order, after the old ones. It reports that many, saves the store and touches no other chat. |
| `Creation.CreateComplete` | bot.py:156-198 | When every pair resolves, the chat's list is its old records followed by `len(dates) * len(times)` well-formed records in pair order. Each fires at its pair's resolved time, after the clock reading used, with its task and one job named by its id. `reminder_count` is the product, other chats are untouched and the store is saved. |
| `Creation.ApplyInterrupted` | bot.py:186-216 | An interrupted batch saves nothing and adds or drops no chat's list. After the pending jobs it leaves the job of each pair that went through, in order. A chat that had a list keeps the record of each such pair after its old records, each `Entry` for the pair's fire time; a new chat has none. |
| `Creation.CreateStops` | bot.py:156-216 | A run that does not complete reaches a count equal to the index of its first pair without a fire time. Nothing is saved. Each earlier pair keeps its job, for the time that pair resolved to at its own clock reading, after the pending jobs. A chat that had a list keeps each such pair's record after its old ones; a new chat gets no list. |
| `Creation.CreateInterrupted` | bot.py:156-216 | If pair k has no fire time, the loop does not complete and stops at the first pair without one, at or before k. What it leaves is as in CreateStops. |
| `Creation.CreateApplies` | bot.py:156-197 | The loop applies exactly the batch its pairs resolve to. |
| `Creation.ReachedStart` | bot.py:156-162 | Before the loop no pair is done: the chat has its old records, the jobs are the pending ones and the count is 0. |
| `Creation.ReachedEnd` | bot.py:197-198 | After the last day the loop's state is exactly what the completed batch computes. |
| `Creation.ReachedGrow` | bot.py:179-195 | A pair that resolves appends its record and its job and bumps the count. |
| `Creation.ReachedFail` | bot.py:169-176 | A pair that does not resolve stops the whole batch there. |
| `Creation.FinishCreates` | bot.py:197-198 | What the loop holds when it finishes is what the batch computes. |
| `Creation.ScheduleDay` | bot.py:162-195 | The inner loop over the hours of one day either carries the batch through that day, or stops with exactly the outcome of the whole batch. |
| `Creation.CreateReminders` | bot.py:156-198 | The nested loop computes exactly the batch's outcome. |
| `Creation.CreateOrphansJob` | bot.py:161-216 | New chat, 10 April 10:00, dates "1,31", times "6": the loop fails, the chat has no records, yet the 1 May 06:00 job stays pending, and the store is no longer backed. |
| `Creation.CreateAtomic` | bot.py:156-198 | All-or-nothing creation completes exactly when every pair has a fire time, and then does what the loop does. Otherwise the bot is left exactly as it was. |
| `Creation.BatchNamed` | bot.py:179-194 | Every job of a batch is for the chat and named by one of the batch's records. |
| `Creation.ApplyBacked` | bot.py:186-198 | A completed batch keeps every job reachable, old and new. |
| `Creation.CreateAtomicBacked` | bot.py:156-198 | All-or-nothing creation keeps every pending job reachable. |
| `Conversation.DatesStep` | bot.py:101-137 | The dates step moves on exactly when the message names a day in 1..31, and then stores those days. Otherwise it asks again with the draft unchanged. A range too long for Python to build is listed under "Left out". |
| `Conversation.Run` | bot.py:156-198 | The creation loop over the draft's days and the accepted hours, with one clock reading per pair. TimesStep, TimesDone, TimesCount and TimesInterrupted state what it does inside the step. |
| `Conversation.TimesStep` | bot.py:140-216 | The times step either ends the conversation, with the draft cleared and the bot as the completed batch leaves it, or asks again with the draft unchanged and a count of 0. A refused message leaves the bot unchanged. |
| `Conversation.TimesDone` | bot.py:140-216 | The times step ends exactly when the hours are accepted and pair k has a fire time at the k-th clock reading, for every pair. |
| `Conversation.TimesCount` | bot.py:195-206 | Whenever the times step completes, it reports `len(dates) * len(times)` reminders. The chat's list is its old records followed by that many new ones, and the store is saved. |
| `Conversation.TimesInterrupted` | bot.py:156-216 | Accepted hours with a pair that has no fire time: the hours are asked for again and nothing is saved. The number of jobs added is the index of the first pair without a fire time. Each earlier pair keeps its job, and a chat that had a list keeps its record, for the time that pair resolved to. A new chat is left with those jobs and no list. |
| `Conversation.TimesStepAtomic` | bot.py:140-216 | Corrected step (see Findings): the same as the step as written when the batch completes. Otherwise the bot, the draft and the count are left as they were. |
| `Conversation.TimesAtomicAgrees` | bot.py:140-216 | The corrected step ends the conversation on exactly the messages the step as written ends it on, with the same outcome. On every other message it changes nothing. |
| `Conversation.TimesBacked` | bot.py:186-198 | Corrected step (see Findings): no message to it leaves a job the chat cannot list or delete. |

## Left out

- The Telegram transport and handler registration. The texts of the replies, Markdown, and the `%B %d, %Y at %I:%M %p` display. Listing yields the number, task and time of each line, not its text.
- `start`, `help_command`, `add_reminder`, `receive_task` and `cancel`. They only reply, store the task, or clear the draft; the draft's task field stands for what `receive_task` stores.
- `send_reminder` and the firing of jobs. This is delivery through the job queue, an external facility; a job is modelled by its name, time and payload.
- JSON `load_reminders` and `save_reminders`. File I/O is replaced by the `saved` snapshot of the store, which marks where a save happens.
- `datetime.now(TIMEZONE)` is a parameter. Creation takes one clock reading per pair, as the loop reads the clock per pair; startup takes one `now`. The times step takes the clock as a stream of readings (`Conversation.Ticking`, every reading a valid date-time) and uses the first one per (day, hour) pair.
- The pytz zone. `tzinfo=TIMEZONE` attaches the zone's first (LMT) offset, not its current one, and comparisons with `now` are affected by that. Times are modelled as naive local date-times in one zone.
- The float `timestamp()` inside an id is modelled as the pair (chat, fire time). Distinct pairs give distinct ids, and equal pairs (a day typed twice) give equal ids.
- `Text.Strip`: Python's `str.strip()` (bot.py:102, bot.py:141) also removes non-ASCII whitespace, such as a no-break space. The model strips ASCII whitespace only, so a message like "\u00a05" is refused here although the bot accepts day 5.
- `Input.Range`: `list(range(start, end + 1))` at bot.py:109 raises `OverflowError` when the range has more than `sys.maxsize` elements, as for "1-9999999999999999999", and `MemoryError` when it is merely too large to allocate, as for "1-100000000000". Neither is the `ValueError` caught at bot.py:135, and no error handler is registered, so the bot sends no reply and the chat stays at the dates step. The model builds every range and clips it to 1..31, so `Input.ParseDays`, `Input.DaysOfRange` and `Conversation.DatesStep` accept such a message with the days from its start to 31. The allocation limit depends on the machine's memory, which the model has no notion of.
- `Text.ParseInt`: Python's `int()` also accepts underscores between digits, and non-ASCII digits and whitespace. In a text with any non-ASCII character it first turns every Unicode whitespace character into a space, so there the separators 0x1c..0x1f are skipped too. The model reads ASCII text only: tab, line feed, vertical tab, form feed, carriage return or space around an optional sign and decimal digits.
- `strptime` also accepts stamps without zero padding. `Stamp.Parse` reads only the fixed-width form the bot writes, so hand-edited store files are out of scope.
- `Stamp.Pad4` writes `%Y` zero-padded to four digits. On some platforms `strftime` does not pad years below 1000; the clock never reads such a year.
- The iteration order of `reminders_db` at startup is the parameter `order`.
- `Conversation.TimesStep` requires a task and days in the draft. The conversation handler only reaches the times step after both are stored; otherwise `context.user_data['dates']` would raise an uncaught `KeyError`.
- Concurrency between handlers is not modelled. Each handler is one atomic step on the bot's state.

## Findings

| source | as written | input that shows it | evidently intended | confidence | as-written member | corrected member |
|---|---|---|---|---|---|---|
| bot.py:161-216 | A `ValueError` on a later (day, hour) pair is caught around the whole loop. Jobs scheduled for earlier pairs stay pending, a new chat's records are dropped, and nothing is saved, while the user is told the input was invalid. | New chat, clock at 2024-04-10 10:00, dates `1,31`, times `6`. Day 1 rolls over to 1 May 06:00 and is scheduled; day 31 does not exist in April. The chat ends with no records but one pending job that `/myreminders` does not show and `/delete` cannot cancel. | No job stays pending without a record its chat can list and delete. All-or-nothing creation (`Creation.CreateAtomic`) is one correction with this property. Per-pair success that stores and saves every pair that resolved is another; it is not modelled. | not executed | `Creation.CreateOrphansJob` | `Creation.CreateAtomic` |

=== FILE: calendar.dfy ===
/** Naive local date-times in the bot's one configured zone, the partial
    `datetime(...)` constructor, the order Python compares them in, and the
    month rollover that turns a day-of-month and an hour into the next fire
    time. */
module Calendar {
  import opened Results

  datatype DateTime = DateTime(year: int, month: int, day: int, hour: int, minute: int, second: int)

  /** Python's `datetime.MINYEAR` and `datetime.MAXYEAR`. */
  const MinYear := 1
  const MaxYear := 9999

  /** Gregorian leap years. */
  predicate IsLeapYear(year: int) {
    year % 4 == 0 && (year % 100 != 0 || year % 400 == 0)
  }

  function DaysInMonth(year: int, month: int): (n: int)
    requires 1 <= month <= 12
    ensures 28 <= n <= 31
  {
    if month == 2 then (if IsLeapYear(year) then 29 else 28)
    else if month == 4 || month == 6 || month == 9 || month == 11 then 30
    else 31
  }

  /** The values `datetime(...)` accepts without raising `ValueError`. */
  predicate Valid(t: DateTime) {
    && MinYear <= t.year <= MaxYear
    && 1 <= t.month <= 12
    && 1 <= t.day <= DaysInMonth(t.year, t.month)
    && 0 <= t.hour <= 23
    && 0 <= t.minute <= 59
    && 0 <= t.second <= 59
  }

  /** `datetime(year, month, day, hour, minute, second)`: None stands for the
      `ValueError` raised on a field out of range, such as day 31 in April. */
  function Make(year: int, month: int, day: int, hour: int, minute: int, second: int): (r: Option<DateTime>)
    ensures r.Some? <==> Valid(DateTime(year, month, day, hour, minute, second))
    ensures r.Some? ==> r.value == DateTime(year, month, day, hour, minute, second)
  {
    var t := DateTime(year, month, day, hour, minute, second);
    if Valid(t) then Some(t) else None
  }

  /** `a < b` on date-times of one zone: field by field, most significant first. */
  predicate Before(a: DateTime, b: DateTime) {
    if a.year != b.year then a.year < b.year
    else if a.month != b.month then a.month < b.month
    else if a.day != b.day then a.day < b.day
    else if a.hour != b.hour then a.hour < b.hour
    else if a.minute != b.minute then a.minute < b.minute
    else a.second < b.second
  }

  /** `a <= b`. */
  predicate NotAfter(a: DateTime, b: DateTime) {
    a == b || Before(a, b)
  }

  lemma BeforeTotal(a: DateTime, b: DateTime)
    ensures a == b || Before(a, b) || Before(b, a)
  {
  }

  lemma BeforeTransitive(a: DateTime, b: DateTime, c: DateTime)
    requires Before(a, b) && Before(b, c)
    ensures Before(a, c)
  {
  }

  /** The calendar month after (year, month): December is followed by January
      of the next year. */
  function NextMonth(year: int, month: int): (int, int) {
    if month == 12 then (year + 1, 1) else (year, month + 1)
  }

  /** The fire time chosen for `day` at `hour` o'clock: this month's slot if
      it is still ahead of `now`, otherwise the same slot one month on.
      None is the `ValueError` of a slot that does not exist: the day is
      missing from this month, or the slot has passed and the day is missing
      from next month (or next month is past year 9999). */
  function Resolve(day: int, hour: int, now: DateTime): (r: Option<DateTime>)
    requires Valid(now)
    ensures r.Some? ==> Valid(r.value) && Before(now, r.value)
    ensures r.Some? ==> r.value.day == day && r.value.hour == hour
                        && r.value.minute == 0 && r.value.second == 0
    ensures r.Some? ==> (r.value.year, r.value.month) == (now.year, now.month)
                        || (r.value.year, r.value.month) == NextMonth(now.year, now.month)
  {
    match Make(now.year, now.month, day, hour, 0, 0)
    case None => None
    case Some(candidate) =>
      if NotAfter(candidate, now) then
        var (year, month) := NextMonth(now.year, now.month);
        Make(year, month, day, hour, 0, 0)
      else
        Some(candidate)
  }

  /** A slot of the form "`day` at `hour`:00:00". */
  predicate IsSlot(t: DateTime, day: int, hour: int) {
    Valid(t) && t.day == day && t.hour == hour && t.minute == 0 && t.second == 0
  }

  /** The month after (y, m) is the earliest month later than (y, m). */
  lemma NextMonthIsNext(y: int, m: int, t: DateTime)
    requires 1 <= m <= 12 && Valid(t)
    requires t.year > y || (t.year == y && t.month > m)
    ensures var (ny, nm) := NextMonth(y, m);
            t.year > ny || (t.year == ny && t.month >= nm)
  {
  }

  /** Whenever Resolve succeeds, no slot of the same day and hour lies strictly
      between `now` and the chosen time: the rollover never skips an existing
      slot. */
  lemma ResolveEarliest(day: int, hour: int, now: DateTime, t: DateTime)
    requires Valid(now)
    requires Resolve(day, hour, now).Some?
    requires IsSlot(t, day, hour) && Before(now, t)
    ensures NotAfter(Resolve(day, hour, now).value, t)
  {
    if t.year != now.year || t.month != now.month {
      NextMonthIsNext(now.year, now.month, t);
    }
  }

  /** Resolve fails exactly when this month has no such day, or when this
      month's slot has passed and next month's slot cannot be built. */
  lemma ResolveFails(day: int, hour: int, now: DateTime)
    requires Valid(now)
    ensures Resolve(day, hour, now).None? <==>
              var candidate := DateTime(now.year, now.month, day, hour, 0, 0);
              var (year, month) := NextMonth(now.year, now.month);
              !Valid(candidate)
              || (NotAfter(candidate, now) && !Valid(DateTime(year, month, day, hour, 0, 0)))
  {
  }

  /** The worked examples: a day already past this month moves to next month,
      a day still ahead stays, and day 31 fails both from a 30-day month and
      when rolling into one. */
  lemma ResolveExamples()
    ensures Resolve(1, 6, DateTime(2024, 3, 15, 10, 0, 0)) == Some(DateTime(2024, 4, 1, 6, 0, 0))
    ensures Resolve(20, 6, DateTime(2024, 3, 15, 10, 0, 0)) == Some(DateTime(2024, 3, 20, 6, 0, 0))
    ensures Resolve(15, 10, DateTime(2024, 3, 15, 10, 0, 0)) == Some(DateTime(2024, 4, 15, 10, 0, 0))
    ensures Resolve(31, 6, DateTime(2024, 4, 10, 10, 0, 0)) == None
    ensures Resolve(31, 6, DateTime(2024, 3, 31, 10, 0, 0)) == None
    ensures Resolve(5, 9, DateTime(2024, 12, 20, 0, 0, 0)) == Some(DateTime(2025, 1, 5, 9, 0, 0))
    ensures Resolve(29, 0, DateTime(2024, 1, 30, 0, 0, 0)) == Some(DateTime(2024, 2, 29, 0, 0, 0))
    ensures Resolve(29, 0, DateTime(2023, 1, 30, 0, 0, 0)) == None
  {
  }
}

=== FILE: conversation.dfy ===
/** The `/addreminder` conversation after the task is known: the dates step
    and the times step, with what each does on a message it refuses. The
    times step is modelled as written (Creation.Create) and, separately, with
    the batch committed only when every pair resolves (Creation.CreateAtomic). */
module Conversation {
  import opened Results
  import opened Calendar
  import opened Input
  import opened Reminders
  import opened Creation

  /** `TASK`, `DATES`, `TIMES` and `ConversationHandler.END`. */
  datatype Step = AskTask | AskDates | AskTimes | Done

  /** `context.user_data`: the task and the days gathered so far. */
  datatype Draft = Draft(task: Option<string>, days: Option<seq<int>>)

  /** The draft and the step the chat is in after a message. */
  datatype Answer = Answer(draft: Draft, next: Step)

  /** `receive_dates`: a message naming at least one day of 1..31 is stored
      and the chat moves on to the hours; any other message leaves the
      draft as it was and asks for the days again. */
  function DatesStep(draft: Draft, input: string): (a: Answer)
    ensures a.next == AskTimes <==> ParseDays(input).Ok?
    ensures a.next == AskDates <==> ParseDays(input).Err?
    ensures a.next == AskDates ==> a.draft == draft
    ensures a.next == AskTimes ==>
              && a.draft.task == draft.task
              && a.draft.days.Some?
              && a.draft.days.value == ParseDays(input).value
  {
    match ParseDays(input)
    case Err(_) => Answer(draft, AskDates)
    case Ok(days) => Answer(draft.(days := Some(days)), AskTimes)
  }

  /** The bot after a times message, the draft, the next step, and
      `reminder_count` as reported. */
  datatype Turn = Turn(bot: Bot, draft: Draft, next: Step, count: nat)

  /** `datetime.now(TIMEZONE)` as a stream of readings: `now(k)` is the k-th
      time the clock is read, always a real date-time. */
  ghost predicate Ticking(now: nat -> DateTime) {
    forall k: nat :: Valid(now(k))
  }

  /** The first `n` readings of the clock. */
  function Readings(now: nat -> DateTime, n: nat): (clock: seq<DateTime>)
    requires Ticking(now)
    ensures Clock(clock, n) && |clock| == n
    ensures forall k :: 0 <= k < n ==> clock[k] == now(k)
  {
    seq(n, (k: int) requires 0 <= k < n => now(k))
  }

  /** The creation loop as written over the draft's days and `hours`, one
      clock reading per pair. */
  function Run(bot: Bot, owner: int, draft: Draft, hours: seq<int>, now: nat -> DateTime): Creation
    requires draft.task.Some? && draft.days.Some? && Ticking(now)
  {
    var days := draft.days.value;
    Create(bot, owner, draft.task.value, days, hours, Readings(now, |Pairs(days, hours)|))
  }

  /** `receive_times`: a message naming at least one hour of 0..23 runs the
      creation loop over every (day, hour) pair. When every pair resolves the
      batch is saved, the draft cleared and the conversation ends. A refused
      message changes nothing; a batch with a pair that has no fire time is
      abandoned where it stands and the hours are asked for again (see
      TimesInterrupted for what it leaves behind). The task and the days are
      in the draft whenever the chat is at this step. */
  function TimesStep(bot: Bot, owner: int, draft: Draft, input: string, now: nat -> DateTime): (t: Turn)
    requires draft.task.Some? && draft.days.Some? && Ticking(now)
    ensures t.next == Done || t.next == AskTimes
    ensures t.next == AskTimes ==> t.draft == draft && t.count == 0
    ensures ParseHours(input).Err? ==> t.next == AskTimes && t.bot == bot
    ensures t.next == Done ==> ParseHours(input).Ok? && t.draft == Draft(None, None)
    ensures t.next == Done ==>
              var c := Run(bot, owner, draft, ParseHours(input).value, now);
              c.complete && t.bot == c.bot && t.count == c.count
  {
    match ParseHours(input)
    case Err(_) => Turn(bot, draft, AskTimes, 0)
    case Ok(hours) =>
      var c := Run(bot, owner, draft, hours, now);
      if c.complete then Turn(c.bot, Draft(None, None), Done, c.count)
      else Turn(c.bot, draft, AskTimes, 0)
  }

  /** The times step ends the conversation exactly when the hours are
      accepted and every (day, hour) pair has a fire time at the reading
      taken for it. */
  lemma TimesDone(bot: Bot, owner: int, draft: Draft, input: string, now: nat -> DateTime)
    requires draft.task.Some? && draft.days.Some? && Ticking(now)
    ensures TimesStep(bot, owner, draft, input, now).next == Done
            <==> && ParseHours(input).Ok?
                 && var ps := Pairs(draft.days.value, ParseHours(input).value);
                    forall k :: 0 <= k < |ps| ==> Resolve(ps[k].day, ps[k].hour, now(k)).Some?
  {
    if ParseHours(input).Ok? {
      var ps := Pairs(draft.days.value, ParseHours(input).value);
      var clock := Readings(now, |ps|);
      OccurrencesComplete(ps, clock);
      OccurrencesResolved(ps, clock);
    }
  }

  /** A completed times step reports `|dates| * |times|` reminders, and the
      chat's list holds its old records followed by that many new ones. */
  lemma TimesCount(bot: Bot, owner: int, draft: Draft, input: string, now: nat -> DateTime)
    requires draft.task.Some? && draft.days.Some? && Ticking(now)
    ensures var t := TimesStep(bot, owner, draft, input, now);
            t.next == Done ==>
            var hours := ParseHours(input).value;
            && t.count == |draft.days.value| * |hours|
            && |t.bot.db[owner]| == |Stored(bot.db, owner)| + t.count
            && t.bot.db[owner][..|Stored(bot.db, owner)|] == Stored(bot.db, owner)
            && t.bot.saved == t.bot.db
  {
    if TimesStep(bot, owner, draft, input, now).next == Done {
      var days, hours := draft.days.value, ParseHours(input).value;
      PairsLength(days, hours);
      TimesDone(bot, owner, draft, input, now);
      CreateComplete(bot, owner, draft.task.value, days, hours, Readings(now, |Pairs(days, hours)|));
    }
  }

  /** Accepted hours with a pair that has no fire time: the chat is asked for
      the hours again and nothing is saved, yet the number of jobs added is
      the index of the first pair without a fire time. Each pair before it
      keeps its job, and a chat that already had a list its record, for the
      time the pair resolved to; a new chat is left with jobs and no list. */
  lemma TimesInterrupted(bot: Bot, owner: int, draft: Draft, input: string, now: nat -> DateTime)
    requires draft.task.Some? && draft.days.Some? && Ticking(now)
    requires ParseHours(input).Ok? && TimesStep(bot, owner, draft, input, now).next == AskTimes
    ensures var t, ps := TimesStep(bot, owner, draft, input, now), Pairs(draft.days.value, ParseHours(input).value);
            var clock, f := Readings(now, |ps|), |t.bot.jobs| - |bot.jobs|;
            && t.draft == draft && t.count == 0
            && FirstFailure(ps, clock, f)
            && LeftBehind(bot, t.bot, owner, draft.task.value, FireTimes(ps, clock, f))
  {
    var days, hours := draft.days.value, ParseHours(input).value;
    CreateStops(bot, owner, draft.task.value, days, hours, Readings(now, |Pairs(days, hours)|));
  }


  /** The times step made all-or-nothing: a batch with a pair that has no
      fire time leaves the bot exactly as it was. */
  function TimesStepAtomic(bot: Bot, owner: int, draft: Draft, input: string, now: nat -> DateTime): (t: Turn)
    requires draft.task.Some? && draft.days.Some? && Ticking(now)
    ensures t.next == Done || t.next == AskTimes
    ensures t.next == AskTimes ==> t.bot == bot && t.draft == draft && t.count == 0
    ensures t.next == Done ==> ParseHours(input).Ok? && t.draft == Draft(None, None)
    ensures t.next == Done ==>
              var c := Run(bot, owner, draft, ParseHours(input).value, now);
              c.complete && t.bot == c.bot && t.count == c.count
  {
    match ParseHours(input)
    case Err(_) => Turn(bot, draft, AskTimes, 0)
    case Ok(hours) =>
      var days := draft.days.value;
      var c := CreateAtomic(bot, owner, draft.task.value, days, hours, Readings(now, |Pairs(days, hours)|));
      if c.complete then Turn(c.bot, Draft(None, None), Done, c.count)
      else Turn(bot, draft, AskTimes, 0)
  }

  /** The corrected step ends the conversation on exactly the messages the
      step as written does, with the same outcome; on every other message it
      changes nothing. */
  lemma TimesAtomicAgrees(bot: Bot, owner: int, draft: Draft, input: string, now: nat -> DateTime)
    requires draft.task.Some? && draft.days.Some? && Ticking(now)
    ensures TimesStepAtomic(bot, owner, draft, input, now)
            == if TimesStep(bot, owner, draft, input, now).next == Done
               then TimesStep(bot, owner, draft, input, now)
               else Turn(bot, draft, AskTimes, 0)
  {
    if ParseHours(input).Ok? {
      var ps := Pairs(draft.days.value, ParseHours(input).value);
      var clock := Readings(now, |ps|);
      OccurrencesComplete(ps, clock);
      OccurrencesResolved(ps, clock);
    }
  }

  /** No message to the corrected times step leaves a job the chat cannot
      list or delete. */
  lemma TimesBacked(bot: Bot, owner: int, draft: Draft, input: string, now: nat -> DateTime)
    requires draft.task.Some? && draft.days.Some? && Ticking(now)
    requires Backed(bot)
    ensures Backed(TimesStepAtomic(bot, owner, draft, input, now).bot)
  {
    if ParseHours(input).Ok? {
      var days, hours := draft.days.value, ParseHours(input).value;
      CreateAtomicBacked(bot, owner, draft.task.value, days, hours, Readings(now, |Pairs(days, hours)|));
    }
  }
}

=== FILE: creation.dfy ===
/** The creation loop of `receive_times`: one reminder and one job for every
    (day, hour) pair, days outer and hours inner, appended to the chat's list
    and saved. A pair whose fire time cannot be built raises `ValueError`,
    which abandons the rest of the batch without saving. */
module Creation {
  import opened Results
  import opened Calendar
  import opened Stamp
  import opened Seqs
  import opened Reminders

  /** One (day, hour) pair of the batch. */
  datatype Slot = Slot(day: int, hour: int)

  /** The pairs of one day, `for hour in times`. */
  function Row(day: int, hours: seq<int>): (r: seq<Slot>)
    ensures |r| == |hours|
    ensures forall b :: 0 <= b < |hours| ==> r[b] == Slot(day, hours[b])
  {
    seq(|hours|, b requires 0 <= b < |hours| => Slot(day, hours[b]))
  }

  /** The pairs in loop order: `for day in dates: for hour in times`. */
  function Pairs(days: seq<int>, hours: seq<int>): (ps: seq<Slot>)
  {
    if |days| == 0 then []
    else Pairs(days[..|days| - 1], hours) + Row(days[|days| - 1], hours)
  }

  /** The batch has `|dates| * |times|` pairs. */
  lemma {:induction false} PairsLength(days: seq<int>, hours: seq<int>)
    ensures |Pairs(days, hours)| == |days| * |hours|
  {
    if |days| > 0 {
      PairsLength(days[..|days| - 1], hours);
      MulStep(|days|, |hours|);
    }
  }

  lemma MulStep(n: nat, h: nat)
    requires n > 0
    ensures (n - 1) * h + h == n * h
  {
  }

  lemma MulMonotone(a: nat, n: nat, h: nat)
    requires a < n
    ensures (a + 1) * h <= n * h
  {
  }

  /** Splitting a pair number into its day and hour. */
  lemma DivBound(k: int, n: nat, h: nat)
    requires 0 <= k < n * h
    ensures h > 0 && 0 <= k / h < n && 0 <= k % h < h && k == (k / h) * h + k % h
  {
    assert h > 0;
    if k / h >= n {
      MulMonotone(n, k / h + 1, h);
    }
  }

  /** Pair number `a * |hours| + b` is day `a` at hour `b`: the batch runs
      date-major, hour-minor. */
  lemma {:induction false} PairsIndex(days: seq<int>, hours: seq<int>, a: int, b: int)
    requires 0 <= a < |days| && 0 <= b < |hours|
    ensures 0 <= a * |hours| + b < |Pairs(days, hours)|
    ensures Pairs(days, hours)[a * |hours| + b] == Slot(days[a], hours[b])
  {
    var n, h := |days|, |hours|;
    var prefix := days[..n - 1];
    PairsLength(prefix, hours);
    assert Pairs(days, hours) == Pairs(prefix, hours) + Row(days[n - 1], hours);
    if a < n - 1 {
      MulMonotone(a, n - 1, h);
      PairsIndex(prefix, hours, a, b);
    } else {
      assert a * h == |Pairs(prefix, hours)|;
    }
  }

  /** Valid clock readings, at least `n` of them. */
  predicate Clock(clock: seq<DateTime>, n: int) {
    |clock| >= n && forall k :: 0 <= k < |clock| ==> Valid(clock[k])
  }

  /** The fire times of a batch: pair k is resolved against the k-th reading
      of the clock (`datetime.now` is read once per pair), and the batch
      stops at the first pair that cannot be resolved. */
  datatype Batch = Batch(times: seq<DateTime>, complete: bool)

  function Occurrences(ps: seq<Slot>, clock: seq<DateTime>): (r: Batch)
    requires Clock(clock, |ps|)
    ensures |r.times| <= |ps|
    ensures r.complete <==> |r.times| == |ps|
    ensures forall k :: 0 <= k < |r.times| ==> Resolve(ps[k].day, ps[k].hour, clock[k]) == Some(r.times[k])
    ensures !r.complete ==> Resolve(ps[|r.times|].day, ps[|r.times|].hour, clock[|r.times|]).None?
  {
    if |ps| == 0 then Batch([], true)
    else
      var n := |ps| - 1;
      var pre := Occurrences(ps[..n], clock);
      if !pre.complete then pre
      else
        match Resolve(ps[n].day, ps[n].hour, clock[n])
        case None => Batch(pre.times, false)
        case Some(t) => Batch(pre.times + [t], true)
  }

  /** Once a batch has failed, later pairs do not run. */
  lemma {:induction false} OccurrencesStop(ps: seq<Slot>, qs: seq<Slot>, clock: seq<DateTime>)
    requires Clock(clock, |ps| + |qs|)
    requires !Occurrences(ps, clock).complete
    ensures Occurrences(ps + qs, clock) == Occurrences(ps, clock)
  {
    if |qs| > 0 {
      var n := |qs| - 1;
      OccurrencesStop(ps, qs[..n], clock);
      assert (ps + qs)[..|ps| + n] == ps + qs[..n];
    }
  }

  /** Every pair succeeds exactly when the batch completes. */
  lemma OccurrencesComplete(ps: seq<Slot>, clock: seq<DateTime>)
    requires Clock(clock, |ps|)
    ensures Occurrences(ps, clock).complete
            <==> forall k :: 0 <= k < |ps| ==> Resolve(ps[k].day, ps[k].hour, clock[k]).Some?
  {
  }

  /** The records of a batch, in pair order. */
  function Entries(owner: int, task: string, times: seq<DateTime>): (rs: seq<Reminder>)
    requires forall k :: 0 <= k < |times| ==> Valid(times[k])
  {
    seq(|times|, k requires 0 <= k < |times| => Entry(owner, task, times[k]))
  }

  /** One job per record, named by its id. */
  function Jobs(owner: int, task: string, times: seq<DateTime>): (js: seq<Job>)
    requires forall k :: 0 <= k < |times| ==> Valid(times[k])
  {
    seq(|times|, k requires 0 <= k < |times| => JobOf(owner, Entry(owner, task, times[k])))
  }

  /** What one run of the loop leaves: the bot, `reminder_count`, and whether
      every pair went through. */
  datatype Creation = Creation(bot: Bot, count: nat, complete: bool)

  /** Every fire time of a batch is a real time. */
  predicate Resolved(b: Batch) {
    forall k :: 0 <= k < |b.times| ==> Valid(b.times[k])
  }

  /** The effect of the pairs of `b` that went through. `chat_reminders` is
      the chat's own list when the chat already has one, so records appended
      before a failure stay in memory; a new chat's list is only stored after
      the loop, so they are dropped. Jobs already scheduled stay scheduled
      either way, and only a complete batch is saved. */
  function Apply(bot: Bot, owner: int, task: string, b: Batch): Creation
    requires Resolved(b)
  {
    var list := Stored(bot.db, owner) + Entries(owner, task, b.times);
    var jobs := bot.jobs + Jobs(owner, task, b.times);
    if b.complete then
      var db := bot.db[owner := list];
      Creation(Bot(db, db, jobs), |b.times|, true)
    else
      var db := if owner in bot.db then bot.db[owner := list] else bot.db;
      Creation(Bot(db, bot.saved, jobs), |b.times|, false)
  }

  lemma OccurrencesResolved(ps: seq<Slot>, clock: seq<DateTime>)
    requires Clock(clock, |ps|)
    ensures Resolved(Occurrences(ps, clock))
  {
    var b := Occurrences(ps, clock);
    forall k | 0 <= k < |b.times|
      ensures Valid(b.times[k])
    {
      assert Resolve(ps[k].day, ps[k].hour, clock[k]) == Some(b.times[k]);
    }
  }

  /** The loop as the bot runs it (`receive_times`, from reading the store to
      saving it). */
  function Create(bot: Bot, owner: int, task: string, days: seq<int>, hours: seq<int>, clock: seq<DateTime>): Creation
    requires Clock(clock, |Pairs(days, hours)|)
  {
    var b := Occurrences(Pairs(days, hours), clock);
    OccurrencesResolved(Pairs(days, hours), clock);
    Apply(bot, owner, task, b)
  }

  /** A batch that went through extends the chat's list and the job queue by
      one record and one job per fire time, in order, and saves the store. */
  lemma ApplyComplete(bot: Bot, owner: int, task: string, b: Batch)
    requires Resolved(b) && b.complete
    ensures var c, n := Apply(bot, owner, task, b), |Stored(bot.db, owner)|;
            && c.complete && c.count == |b.times|
            && c.bot.saved == c.bot.db
            && c.bot.db.Keys == bot.db.Keys + {owner}
            && (forall o :: o in bot.db && o != owner ==> c.bot.db[o] == bot.db[o])
            && |c.bot.db[owner]| == n + |b.times|
            && c.bot.db[owner][..n] == Stored(bot.db, owner)
            && |c.bot.jobs| == |bot.jobs| + |b.times|
            && c.bot.jobs[..|bot.jobs|] == bot.jobs
            && forall k :: 0 <= k < |b.times| ==>
                 c.bot.db[owner][n + k] == Entry(owner, task, b.times[k])
                 && c.bot.jobs[|bot.jobs| + k] == JobOf(owner, c.bot.db[owner][n + k])
  {
    var rs, es := Stored(bot.db, owner), Entries(owner, task, b.times);
    var js := Jobs(owner, task, b.times);
    forall k | 0 <= k < |b.times|
      ensures (rs + es)[|rs| + k] == Entry(owner, task, b.times[k])
      ensures (bot.jobs + js)[|bot.jobs| + k] == JobOf(owner, (rs + es)[|rs| + k])
    {
      AppendAt(rs, es, k);
      AppendAt(bot.jobs, js, k);
    }
    AppendPrefix(rs, es);
    AppendPrefix(bot.jobs, js);
  }

  /** A complete batch: the chat's list is its old records followed by one
      record per pair, in pair order, each for the fire time its pair
      resolved to; each record is well formed, fires after the clock reading
      it was resolved against, and gets exactly one job, named by its id,
      appended after the jobs already pending. Other chats are untouched and
      the store is saved. (By OccurrencesComplete, a batch is complete
      exactly when every pair resolves.) */
  lemma CreateComplete(bot: Bot, owner: int, task: string, days: seq<int>, hours: seq<int>, clock: seq<DateTime>)
    requires Clock(clock, |Pairs(days, hours)|)
    requires Occurrences(Pairs(days, hours), clock).complete
    ensures var c, ps := Create(bot, owner, task, days, hours, clock), Pairs(days, hours);
            var n := |Stored(bot.db, owner)|;
            && c.complete && c.count == |ps|
            && c.bot.saved == c.bot.db
            && c.bot.db.Keys == bot.db.Keys + {owner}
            && (forall o :: o in bot.db && o != owner ==> c.bot.db[o] == bot.db[o])
            && |c.bot.db[owner]| == n + |ps|
            && c.bot.db[owner][..n] == Stored(bot.db, owner)
            && |c.bot.jobs| == |bot.jobs| + |ps|
            && c.bot.jobs[..|bot.jobs|] == bot.jobs
            && forall k :: 0 <= k < |ps| ==>
                 var r := c.bot.db[owner][n + k];
                 && Resolve(ps[k].day, ps[k].hour, clock[k]) == Some(r.id.fireAt)
                 && WellFormedIn(owner, r) && r.task == task
                 && Before(clock[k], r.id.fireAt)
                 && c.bot.jobs[|bot.jobs| + k] == JobOf(owner, r)
  {
    var ps := Pairs(days, hours);
    var b := Occurrences(ps, clock);
    OccurrencesResolved(ps, clock);
    ApplyComplete(bot, owner, task, b);
  }

  /** Pair `f` is the first pair that has no fire time at the reading taken
      for it. */
  predicate FirstFailure(ps: seq<Slot>, clock: seq<DateTime>, f: int)
    requires Clock(clock, |ps|)
  {
    && 0 <= f < |ps|
    && (forall j :: 0 <= j < f ==> Resolve(ps[j].day, ps[j].hour, clock[j]).Some?)
    && Resolve(ps[f].day, ps[f].hour, clock[f]).None?
  }

  /** The fire times of the first `f` pairs, each resolved against its own
      reading. */
  function FireTimes(ps: seq<Slot>, clock: seq<DateTime>, f: int): (times: seq<DateTime>)
    requires Clock(clock, |ps|) && 0 <= f <= |ps|
    requires forall j :: 0 <= j < f ==> Resolve(ps[j].day, ps[j].hour, clock[j]).Some?
    ensures |times| == f
    ensures forall j :: 0 <= j < f ==> Valid(times[j]) && Resolve(ps[j].day, ps[j].hour, clock[j]) == Some(times[j])
  {
    seq(f, j requires 0 <= j < f => Resolve(ps[j].day, ps[j].hour, clock[j]).value)
  }

  /** What an interrupted batch leaves in `after`, `times` being the fire
      times of the pairs that ran: nothing is saved and no chat gains or loses
      a list; a job for each time stays scheduled after the jobs already
      pending, in order; a chat that already had a list keeps a record for
      each time after its old records, while a new chat has none. */
  predicate LeftBehind(bot: Bot, after: Bot, owner: int, task: string, times: seq<DateTime>)
    requires forall k :: 0 <= k < |times| ==> Valid(times[k])
  {
    && after.saved == bot.saved
    && after.db.Keys == bot.db.Keys
    && (forall o :: o in bot.db && o != owner ==> after.db[o] == bot.db[o])
    && |after.jobs| == |bot.jobs| + |times|
    && after.jobs[..|bot.jobs|] == bot.jobs
    && (forall k :: 0 <= k < |times| ==>
          after.jobs[|bot.jobs| + k] == JobOf(owner, Entry(owner, task, times[k])))
    && (owner in bot.db ==>
          && |after.db[owner]| == |bot.db[owner]| + |times|
          && after.db[owner][..|bot.db[owner]|] == bot.db[owner]
          && forall k :: 0 <= k < |times| ==>
               after.db[owner][|bot.db[owner]| + k] == Entry(owner, task, times[k]))
  }

  /** A batch cut short leaves the jobs, and for a chat with a list the
      records, of exactly the pairs that went through, and saves nothing. */
  lemma ApplyInterrupted(bot: Bot, owner: int, task: string, b: Batch)
    requires Resolved(b) && !b.complete
    ensures var c := Apply(bot, owner, task, b);
            && !c.complete && c.count == |b.times|
            && LeftBehind(bot, c.bot, owner, task, b.times)
  {
    var js := Jobs(owner, task, b.times);
    forall k | 0 <= k < |b.times|
      ensures (bot.jobs + js)[|bot.jobs| + k] == JobOf(owner, Entry(owner, task, b.times[k]))
    {
      AppendAt(bot.jobs, js, k);
    }
    AppendPrefix(bot.jobs, js);
    if owner in bot.db {
      var rs, es := bot.db[owner], Entries(owner, task, b.times);
      forall k | 0 <= k < |b.times|
        ensures (rs + es)[|rs| + k] == Entry(owner, task, b.times[k])
      {
        AppendAt(rs, es, k);
      }
      AppendPrefix(rs, es);
    }
  }

  /** A run of the loop that does not complete stopped at its first pair
      without a fire time, and the count it reached is that pair's index.
      Nothing is saved, yet the pairs before it keep their jobs, and a chat
      with a list keeps their records, each for the time its pair resolved
      to. */
  lemma CreateStops(bot: Bot, owner: int, task: string, days: seq<int>, hours: seq<int>, clock: seq<DateTime>)
    requires Clock(clock, |Pairs(days, hours)|)
    requires !Create(bot, owner, task, days, hours, clock).complete
    ensures var c, ps := Create(bot, owner, task, days, hours, clock), Pairs(days, hours);
            && FirstFailure(ps, clock, c.count)
            && LeftBehind(bot, c.bot, owner, task, FireTimes(ps, clock, c.count))
  {
    var ps := Pairs(days, hours);
    var b := Occurrences(ps, clock);
    OccurrencesResolved(ps, clock);
    ApplyInterrupted(bot, owner, task, b);
    assert FireTimes(ps, clock, |b.times|) == b.times;
  }

  /** When pair k cannot be resolved the loop does not complete, and stops at
      or before k; CreateStops says what it leaves behind. */
  lemma CreateInterrupted(bot: Bot, owner: int, task: string, days: seq<int>, hours: seq<int>, clock: seq<DateTime>, k: int)
    requires Clock(clock, |Pairs(days, hours)|)
    requires 0 <= k < |Pairs(days, hours)|
    requires Resolve(Pairs(days, hours)[k].day, Pairs(days, hours)[k].hour, clock[k]).None?
    ensures var c, ps := Create(bot, owner, task, days, hours, clock), Pairs(days, hours);
            && !c.complete
            && c.count <= k
            && FirstFailure(ps, clock, c.count)
            && LeftBehind(bot, c.bot, owner, task, FireTimes(ps, clock, c.count))
  {
    OccurrencesComplete(Pairs(days, hours), clock);
    CreateStops(bot, owner, task, days, hours, clock);
  }

  // ---------------------------------------------------------------------------
  // The loop itself

  /** The batch so far is a prefix of the full batch. */
  lemma {:induction false} PairsPrefixDays(days: seq<int>, hours: seq<int>, m: int)
    requires 0 <= m <= |days|
    ensures Pairs(days[..m], hours) <= Pairs(days, hours)
  {
    var n := |days|;
    if m == n {
      assert days[..m] == days;
    } else {
      var pre := days[..n - 1];
      assert pre[..m] == days[..m];
      PairsPrefixDays(pre, hours, m);
      assert Pairs(days, hours) == Pairs(pre, hours) + Row(days[n - 1], hours);
      PrefixGrow(Pairs(days[..m], hours), Pairs(pre, hours), Row(days[n - 1], hours));
    }
  }

  lemma PrefixGrow<T>(a: seq<T>, b: seq<T>, c: seq<T>)
    requires a <= b
    ensures a <= b + c
  {
    assert (b + c)[..|a|] == b[..|a|];
  }

  /** Adding day `a` to the days done adds its row. */
  lemma PairsGrow(days: seq<int>, hours: seq<int>, a: int)
    requires 0 <= a < |days|
    ensures Pairs(days[..a + 1], hours) == Pairs(days[..a], hours) + Row(days[a], hours)
  {
    assert days[..a + 1][..a] == days[..a];
  }

  /** The pairs through day `a` at hour `b` (exclusive) are a prefix of the
      batch. */
  lemma PairsPrefix(days: seq<int>, hours: seq<int>, a: int, b: int)
    requires 0 <= a < |days| && 0 <= b <= |hours|
    ensures Pairs(days[..a], hours) + Row(days[a], hours[..b]) <= Pairs(days, hours)
  {
    var done := Pairs(days[..a], hours);
    PairsGrow(days, hours, a);
    PairsPrefixDays(days, hours, a + 1);
    assert done + Row(days[a], hours[..b]) <= done + Row(days[a], hours);
  }

  lemma RowGrow(day: int, hours: seq<int>, b: int)
    requires 0 <= b < |hours|
    ensures Row(day, hours[..b + 1]) == Row(day, hours[..b]) + [Slot(day, hours[b])]
  {
  }

  /** One more pair that resolves to `at`. */
  lemma OccurrencesGrow(done: seq<Slot>, next: Slot, clock: seq<DateTime>, times: seq<DateTime>, at: DateTime)
    requires Clock(clock, |done| + 1)
    requires Occurrences(done, clock) == Batch(times, true)
    requires Resolve(next.day, next.hour, clock[|done|]) == Some(at)
    ensures Occurrences(done + [next], clock) == Batch(times + [at], true)
  {
    assert (done + [next])[..|done|] == done;
  }

  /** One more pair that does not resolve. */
  lemma OccurrencesFail(done: seq<Slot>, next: Slot, clock: seq<DateTime>, times: seq<DateTime>)
    requires Clock(clock, |done| + 1)
    requires Occurrences(done, clock) == Batch(times, true)
    requires Resolve(next.day, next.hour, clock[|done|]).None?
    ensures Occurrences(done + [next], clock) == Batch(times, false)
  {
    assert (done + [next])[..|done|] == done;
  }

  /** A batch that failed at some prefix of the pairs fails as a whole. */
  lemma OccurrencesHalt(cut: seq<Slot>, ps: seq<Slot>, clock: seq<DateTime>, times: seq<DateTime>)
    requires cut <= ps && Clock(clock, |ps|)
    requires Occurrences(cut, clock) == Batch(times, false)
    ensures Occurrences(ps, clock) == Batch(times, false)
  {
    assert cut + ps[|cut|..] == ps;
    OccurrencesStop(cut, ps[|cut|..], clock);
  }

  /** Create applies the batch its pairs resolve to. */
  lemma CreateApplies(bot: Bot, owner: int, task: string, days: seq<int>, hours: seq<int>, clock: seq<DateTime>, b: Batch)
    requires Clock(clock, |Pairs(days, hours)|)
    requires Occurrences(Pairs(days, hours), clock) == b
    ensures Resolved(b)
    ensures Create(bot, owner, task, days, hours, clock) == Apply(bot, owner, task, b)
  {
    OccurrencesResolved(Pairs(days, hours), clock);
  }

  lemma BatchGrow(owner: int, task: string, times: seq<DateTime>, at: DateTime)
    requires forall k :: 0 <= k < |times| ==> Valid(times[k])
    requires Valid(at)
    ensures Entries(owner, task, times + [at]) == Entries(owner, task, times) + [Entry(owner, task, at)]
    ensures Jobs(owner, task, times + [at]) == Jobs(owner, task, times) + [JobOf(owner, Entry(owner, task, at))]
  {
  }

  /** The loop's own state: `chat_reminders`, the job queue and
      `reminder_count`. */
  datatype Progress = Progress(chatReminders: seq<Reminder>, jobs: seq<Job>, count: nat)

  /** `p` holds one record and one job per fire time of `times`, after the
      chat's old records and the jobs already pending. */
  predicate Holds(bot: Bot, owner: int, task: string, times: seq<DateTime>, p: Progress) {
    && (forall k :: 0 <= k < |times| ==> Valid(times[k]))
    && p.count == |times|
    && p.chatReminders == Stored(bot.db, owner) + Entries(owner, task, times)
    && p.jobs == bot.jobs + Jobs(owner, task, times)
  }

  /** The pairs `done`, a prefix of the batch, all went through as `times`. */
  predicate Reached(bot: Bot, owner: int, task: string, ps: seq<Slot>, clock: seq<DateTime>,
                    done: seq<Slot>, times: seq<DateTime>, p: Progress)
  {
    && done <= ps && Clock(clock, |ps|)
    && Occurrences(done, clock) == Batch(times, true)
    && Holds(bot, owner, task, times, p)
  }

  /** One more pair that resolves to `at`: its record and its job go on the
      end. */
  lemma ReachedGrow(bot: Bot, owner: int, task: string, ps: seq<Slot>, clock: seq<DateTime>,
                    done: seq<Slot>, next: Slot, times: seq<DateTime>, p: Progress, at: DateTime)
    requires Reached(bot, owner, task, ps, clock, done, times, p)
    requires done + [next] <= ps
    requires Resolve(next.day, next.hour, clock[|done|]) == Some(at)
    ensures var entry := Entry(owner, task, at);
            Reached(bot, owner, task, ps, clock, done + [next], times + [at],
                    Progress(p.chatReminders + [entry], p.jobs + [JobOf(owner, entry)], p.count + 1))
  {
    OccurrencesGrow(done, next, clock, times, at);
    BatchGrow(owner, task, times, at);
    var entry := Entry(owner, task, at);
    AppendAssoc(Stored(bot.db, owner), Entries(owner, task, times), [entry]);
    AppendAssoc(bot.jobs, Jobs(owner, task, times), [JobOf(owner, entry)]);
  }

  /** One more pair that does not resolve: the whole batch stops there. */
  lemma ReachedFail(bot: Bot, owner: int, task: string, ps: seq<Slot>, clock: seq<DateTime>,
                    done: seq<Slot>, next: Slot, times: seq<DateTime>, p: Progress)
    requires Reached(bot, owner, task, ps, clock, done, times, p)
    requires done + [next] <= ps
    requires Resolve(next.day, next.hour, clock[|done|]).None?
    ensures Occurrences(ps, clock) == Batch(times, false)
  {
    OccurrencesFail(done, next, clock, times);
    OccurrencesHalt(done + [next], ps, clock, times);
  }

  /** The hours of day `a` start from the pairs of the days before it, and
      all of them make up the pairs through day `a`. */
  lemma RowBounds(days: seq<int>, hours: seq<int>, a: int)
    requires 0 <= a < |days|
    ensures Pairs(days[..a], hours) + Row(days[a], hours[..0]) == Pairs(days[..a], hours)
    ensures Pairs(days[..a], hours) + Row(days[a], hours[..|hours|]) == Pairs(days[..a + 1], hours)
  {
    assert hours[..|hours|] == hours;
    PairsGrow(days, hours, a);
  }

  /** The pair after day `a`'s first `b` hours is day `a` at hour `b`, and it
      is still part of the batch. */
  lemma NextPair(days: seq<int>, hours: seq<int>, a: int, b: int)
    requires 0 <= a < |days| && 0 <= b < |hours|
    ensures var done := Pairs(days[..a], hours) + Row(days[a], hours[..b]);
            && done + [Slot(days[a], hours[b])] == Pairs(days[..a], hours) + Row(days[a], hours[..b + 1])
            && done + [Slot(days[a], hours[b])] <= Pairs(days, hours)
  {
    PairsPrefix(days, hours, a, b + 1);
    RowGrow(days[a], hours, b);
  }

  /** While pairs remain there is a clock reading for the next one. */
  lemma ReachedRoom(bot: Bot, owner: int, task: string, ps: seq<Slot>, clock: seq<DateTime>,
                    done: seq<Slot>, next: Slot, times: seq<DateTime>, p: Progress)
    requires Reached(bot, owner, task, ps, clock, done, times, p)
    requires done + [next] <= ps
    ensures p.count == |done| < |clock|
  {
  }

  /** After the loop: a complete loop stores the chat's list and saves; an
      interrupted one leaves a new chat's list unstored and saves nothing.
      The jobs stay scheduled either way. */
  function Finish(bot: Bot, owner: int, p: Progress, complete: bool): Creation {
    if complete then
      var db := bot.db[owner := p.chatReminders];
      Creation(Bot(db, db, p.jobs), p.count, true)
    else
      var db := if owner in bot.db then bot.db[owner := p.chatReminders] else bot.db;
      Creation(Bot(db, bot.saved, p.jobs), p.count, false)
  }

  /** Finishing a loop that got as far as `times` is what Create computes. */
  lemma FinishCreates(bot: Bot, owner: int, task: string, days: seq<int>, hours: seq<int>, clock: seq<DateTime>,
                      times: seq<DateTime>, p: Progress, complete: bool)
    requires Clock(clock, |Pairs(days, hours)|)
    requires Occurrences(Pairs(days, hours), clock) == Batch(times, complete)
    requires Holds(bot, owner, task, times, p)
    ensures Finish(bot, owner, p, complete) == Create(bot, owner, task, days, hours, clock)
  {
    CreateApplies(bot, owner, task, days, hours, clock, Batch(times, complete));
  }

  /** Before the loop: no pair done, the chat's old records and the pending
      jobs. */
  lemma ReachedStart(bot: Bot, owner: int, task: string, days: seq<int>, hours: seq<int>, clock: seq<DateTime>)
    requires Clock(clock, |Pairs(days, hours)|)
    ensures Reached(bot, owner, task, Pairs(days, hours), clock, Pairs(days[..0], hours), [],
                    Progress(Stored(bot.db, owner), bot.jobs, 0))
  {
    assert days[..0] == [];
    assert Stored(bot.db, owner) + Entries(owner, task, []) == Stored(bot.db, owner);
    assert bot.jobs + Jobs(owner, task, []) == bot.jobs;
  }

  /** After every day: the complete batch is what Create computes. */
  lemma ReachedEnd(bot: Bot, owner: int, task: string, days: seq<int>, hours: seq<int>, clock: seq<DateTime>,
                   times: seq<DateTime>, p: Progress)
    requires Reached(bot, owner, task, Pairs(days, hours), clock, Pairs(days[..|days|], hours), times, p)
    ensures Finish(bot, owner, p, true) == Create(bot, owner, task, days, hours, clock)
  {
    assert days[..|days|] == days;
    FinishCreates(bot, owner, task, days, hours, clock, times, p, true);
  }

  /** The inner loop, `for hour in times`, for day number `a`: false when a
      fire time cannot be built, which ends the whole batch. */
  method ScheduleDay(bot: Bot, owner: int, task: string, days: seq<int>, hours: seq<int>, clock: seq<DateTime>,
                     a: int, p: Progress, ghost times: seq<DateTime>)
    returns (q: Progress, ok: bool, ghost after: seq<DateTime>)
    requires 0 <= a < |days|
    requires Reached(bot, owner, task, Pairs(days, hours), clock, Pairs(days[..a], hours), times, p)
    ensures ok ==> Reached(bot, owner, task, Pairs(days, hours), clock, Pairs(days[..a + 1], hours), after, q)
    ensures !ok ==> Finish(bot, owner, q, false) == Create(bot, owner, task, days, hours, clock)
  {
    ghost var ps, before := Pairs(days, hours), Pairs(days[..a], hours);
    var chatReminders: seq<Reminder>, jobs: seq<Job>, count: nat := p.chatReminders, p.jobs, p.count;
    after := times;
    RowBounds(days, hours, a);
    var b := 0;
    while b < |hours|
      invariant 0 <= b <= |hours|
      invariant Reached(bot, owner, task, ps, clock, before + Row(days[a], hours[..b]), after,
                        Progress(chatReminders, jobs, count))
    {
      ghost var done := before + Row(days[a], hours[..b]);
      ghost var next := Slot(days[a], hours[b]);
      NextPair(days, hours, a, b);
      ReachedRoom(bot, owner, task, ps, clock, done, next, after, Progress(chatReminders, jobs, count));
      var now := clock[count];
      match Resolve(days[a], hours[b], now)
      case None =>
        ReachedFail(bot, owner, task, ps, clock, done, next, after, Progress(chatReminders, jobs, count));
        FinishCreates(bot, owner, task, days, hours, clock, after, Progress(chatReminders, jobs, count), false);
        return Progress(chatReminders, jobs, count), false, after;
      case Some(at) =>
        ReachedGrow(bot, owner, task, ps, clock, done, next, after, Progress(chatReminders, jobs, count), at);
        var entry := Entry(owner, task, at);
        chatReminders := chatReminders + [entry];
        jobs := jobs + [JobOf(owner, entry)];
        count := count + 1;
        after := after + [at];
        b := b + 1;
    }
    q, ok := Progress(chatReminders, jobs, count), true;
  }

  /** The nested loop of `receive_times`: for each day, for each hour, read
      the clock, build the fire time (rolling over to next month when this
      month's slot has passed), append the record and schedule its job. A
      fire time that cannot be built abandons the rest of the loop. */
  method CreateReminders(bot: Bot, owner: int, task: string, days: seq<int>, hours: seq<int>, clock: seq<DateTime>)
    returns (c: Creation)
    requires Clock(clock, |Pairs(days, hours)|)
    ensures c == Create(bot, owner, task, days, hours, clock)
  {
    var p := Progress(Stored(bot.db, owner), bot.jobs, 0);
    ghost var times: seq<DateTime> := [];
    ReachedStart(bot, owner, task, days, hours, clock);
    var a := 0;
    while a < |days|
      invariant 0 <= a <= |days|
      invariant Reached(bot, owner, task, Pairs(days, hours), clock, Pairs(days[..a], hours), times, p)
    {
      var ok;
      p, ok, times := ScheduleDay(bot, owner, task, days, hours, clock, a, p, times);
      if !ok {
        return Finish(bot, owner, p, false);
      }
      a := a + 1;
    }
    ReachedEnd(bot, owner, task, days, hours, clock, times, p);
    c := Finish(bot, owner, p, true);
  }

  // ---------------------------------------------------------------------------
  // A failed batch leaves jobs without records

  /** 10:00 on 10 April 2024. */
  const AprilTenth := DateTime(2024, 4, 10, 10, 0, 0)

  /** A new chat asks for days 1 and 31 at 06:00 on 10 April: day 1 has
      passed, so its reminder rolls over to 1 May and is scheduled; April has
      no day 31, so the loop stops there. The chat is told the input was
      invalid and has no records, yet the 1 May job stays pending: the list
      does not show it and `/delete` cannot reach it. */
  lemma CreateOrphansJob()
    ensures Pairs([1, 31], [6]) == [Slot(1, 6), Slot(31, 6)]
    ensures var bot := Bot(map[], map[], []);
            var c := Create(bot, 7, "Pay rent", [1, 31], [6], [AprilTenth, AprilTenth]);
            && Backed(bot)
            && !c.complete
            && 7 !in c.bot.db
            && c.bot.jobs == [JobOf(7, Entry(7, "Pay rent", DateTime(2024, 5, 1, 6, 0, 0)))]
            && !Backed(c.bot)
  {
    var ps := [Slot(1, 6), Slot(31, 6)];
    var clock := [AprilTenth, AprilTenth];
    var may := DateTime(2024, 5, 1, 6, 0, 0);
    OrphanPairs();
    OrphanBatch();
    CreateApplies(Bot(map[], map[], []), 7, "Pay rent", [1, 31], [6], clock, Batch([may], false));
    assert Jobs(7, "Pay rent", [may]) == [JobOf(7, Entry(7, "Pay rent", may))];
    var c := Create(Bot(map[], map[], []), 7, "Pay rent", [1, 31], [6], clock);
    assert c.bot.jobs[0] in c.bot.jobs && c.bot.jobs[0].payload.chatId == 7 && Stored(c.bot.db, 7) == [];
  }

  lemma OrphanPairs()
    ensures Pairs([1, 31], [6]) == [Slot(1, 6), Slot(31, 6)]
  {
    assert [1, 31][..1] == [1];
    assert [1][..0] == [];
    assert Row(1, [6]) == [Slot(1, 6)];
    assert Row(31, [6]) == [Slot(31, 6)];
  }

  lemma OrphanBatch()
    ensures Occurrences([Slot(1, 6), Slot(31, 6)], [AprilTenth, AprilTenth])
            == Batch([DateTime(2024, 5, 1, 6, 0, 0)], false)
  {
    var ps := [Slot(1, 6), Slot(31, 6)];
    var may := DateTime(2024, 5, 1, 6, 0, 0);
    assert Resolve(1, 6, AprilTenth) == Some(may);
    assert Resolve(31, 6, AprilTenth).None?;
    assert ps[..1] == [Slot(1, 6)] && ps[..1][..0] == [];
  }

  /** The loop made all-or-nothing: the batch is resolved first, and only
      when every pair resolves are its records stored, its jobs scheduled and
      the store saved; otherwise the bot is left as it was. */
  function CreateAtomic(bot: Bot, owner: int, task: string, days: seq<int>, hours: seq<int>, clock: seq<DateTime>): (c: Creation)
    requires Clock(clock, |Pairs(days, hours)|)
    ensures c.complete <==> forall k :: 0 <= k < |Pairs(days, hours)| ==>
              Resolve(Pairs(days, hours)[k].day, Pairs(days, hours)[k].hour, clock[k]).Some?
    ensures c.complete ==> c == Create(bot, owner, task, days, hours, clock)
    ensures !c.complete ==> c.bot == bot && c.count == 0
  {
    var b := Occurrences(Pairs(days, hours), clock);
    OccurrencesComplete(Pairs(days, hours), clock);
    OccurrencesResolved(Pairs(days, hours), clock);
    if b.complete then Apply(bot, owner, task, b) else Creation(bot, 0, false)
  }

  /** Every job of a batch is for the chat and named by one of the batch's
      records. */
  lemma BatchNamed(owner: int, task: string, times: seq<DateTime>)
    requires forall k :: 0 <= k < |times| ==> Valid(times[k])
    ensures forall j :: j in Jobs(owner, task, times) ==>
              j.payload.chatId == owner && Names(Entries(owner, task, times), j.name)
  {
    var es, js := Entries(owner, task, times), Jobs(owner, task, times);
    forall j | j in js
      ensures j.payload.chatId == owner && Names(es, j.name)
    {
      var m :| 0 <= m < |js| && js[m] == j;
      assert es[m] in es;
    }
  }

  /** A complete batch keeps every job reachable, old and new. */
  lemma ApplyBacked(bot: Bot, owner: int, task: string, b: Batch)
    requires Resolved(b) && b.complete
    requires Backed(bot)
    ensures Backed(Apply(bot, owner, task, b).bot)
  {
    var rs, es, js := Stored(bot.db, owner), Entries(owner, task, b.times), Jobs(owner, task, b.times);
    var db := bot.db[owner := rs + es];
    assert Apply(bot, owner, task, b).bot == Bot(db, db, bot.jobs + js);
    BatchNamed(owner, task, b.times);
    BackedGrow(bot, owner, es, js, db);
  }

  /** The all-or-nothing loop keeps every pending job reachable. */
  lemma CreateAtomicBacked(bot: Bot, owner: int, task: string, days: seq<int>, hours: seq<int>, clock: seq<DateTime>)
    requires Clock(clock, |Pairs(days, hours)|)
    requires Backed(bot)
    ensures Backed(CreateAtomic(bot, owner, task, days, hours, clock).bot)
  {
    var b := Occurrences(Pairs(days, hours), clock);
    if b.complete {
      OccurrencesResolved(Pairs(days, hours), clock);
      ApplyBacked(bot, owner, task, b);
    }
  }
}

=== FILE: input.dfy ===
/** Reading the day list and the hour list a user types while creating a
    reminder (`receive_dates` and the first lines of `receive_times`). */
module Input {
  import opened Results
  import opened Text
  import opened Seqs

  /** Why a message is refused; either way the conversation asks again. */
  datatype InputError =
    | BadFormat    // a token that `int()` rejects, or a range without exactly two ends
    | NoneInRange  // every number named lies outside the allowed range

  predicate IsDay(d: int) {
    1 <= d <= 31
  }

  predicate IsHour(h: int) {
    0 <= h <= 23
  }

  /** `list(range(a, b + 1))`: a, a+1, ..., b, empty when a > b. */
  function Range(a: int, b: int): (r: seq<int>)
    ensures |r| == if a <= b then b - a + 1 else 0
    ensures forall i :: 0 <= i < |r| ==> r[i] == a + i
    decreases b - a
  {
    if a > b then [] else [a] + Range(a + 1, b)
  }

  /** `int(t.strip())`: a comma token is stripped by `str.strip()` before
      `int()` sees it, so the separators 0x1c..0x1f around it are removed. */
  function ParseToken(t: string): Option<int> {
    ParseInt(Strip(t))
  }

  /** `[conv(t) for t in tokens]`: every token converted, in order, or
      `BadFormat` as soon as `conv` rejects one. The comma branches convert
      with `ParseToken`, `int(t.strip())`. */
  function ParseEach(tokens: seq<string>, conv: string -> Option<int>): (r: Result<seq<int>, InputError>)
    ensures r.Ok? <==> forall i :: 0 <= i < |tokens| ==> conv(tokens[i]).Some?
    ensures r.Ok? ==> |r.value| == |tokens|
    ensures r.Err? ==> r.error == BadFormat
  {
    if |tokens| == 0 then Ok([])
    else
      AllParseShift(tokens, conv);
      match conv(tokens[0])
      case None => Err(BadFormat)
      case Some(v) =>
        match ParseEach(tokens[1..], conv)
        case Err(e) => Err(e)
        case Ok(vs) => Ok([v] + vs)
  }

  /** Each converted number is its own token's value, in token order. */
  lemma {:induction false} ParseEachValues(tokens: seq<string>, conv: string -> Option<int>)
    requires ParseEach(tokens, conv).Ok?
    ensures forall i :: 0 <= i < |tokens| ==> ParseEach(tokens, conv).value[i] == conv(tokens[i]).value
  {
    if |tokens| > 0 {
      var rest := ParseEach(tokens[1..], conv);
      assert rest.Ok?;
      ParseEachValues(tokens[1..], conv);
      assert ParseEach(tokens, conv).value == [conv(tokens[0]).value] + rest.value;
      forall i | 1 <= i < |tokens|
        ensures ParseEach(tokens, conv).value[i] == conv(tokens[i]).value
      {
        assert tokens[i] == tokens[1..][i - 1];
      }
    }
  }

  /** Every token converts exactly when the first one does and every one
      after it does. */
  lemma AllParseShift(tokens: seq<string>, conv: string -> Option<int>)
    requires |tokens| > 0
    ensures (forall i :: 0 <= i < |tokens| ==> conv(tokens[i]).Some?)
            <==> conv(tokens[0]).Some? && forall i :: 0 <= i < |tokens[1..]| ==> conv(tokens[1..][i]).Some?
  {
    if conv(tokens[0]).Some? && forall i :: 0 <= i < |tokens[1..]| ==> conv(tokens[1..][i]).Some? {
      forall i | 1 <= i < |tokens|
        ensures conv(tokens[i]).Some?
      {
        assert tokens[i] == tokens[1..][i - 1];
      }
    }
  }

  /** The numbers a dates message names, before range checking: an inclusive
      range `A-B` when the text holds a dash, a comma list when it holds a
      comma, a single number otherwise. */
  function RawDays(input: string): Result<seq<int>, InputError> {
    var s := Strip(input);
    if '-' in s then
      var ends := Split(s, '-');
      if |ends| != 2 then Err(BadFormat)
      else
        match (ParseInt(ends[0]), ParseInt(ends[1]))
        case (Some(a), Some(b)) => Ok(Range(a, b))
        case _ => Err(BadFormat)
    else if ',' in s then ParseEach(Split(s, ','), ParseToken)
    else
      match ParseInt(s)
      case Some(d) => Ok([d])
      case None => Err(BadFormat)
  }

  /** The day list accepted by the dates step: the named days that lie in
      1..31, in the order named, repetitions kept; never empty. */
  function ParseDays(input: string): (r: Result<seq<int>, InputError>)
    ensures r.Ok? ==> |r.value| > 0 && forall i :: 0 <= i < |r.value| ==> IsDay(r.value[i])
    ensures r.Ok? <==> RawDays(input).Ok? && Filter(RawDays(input).value, IsDay) != []
    ensures r.Ok? ==> r.value == Filter(RawDays(input).value, IsDay)
  {
    match RawDays(input)
    case Err(e) => Err(e)
    case Ok(days) =>
      var kept := Filter(days, IsDay);
      if |kept| == 0 then Err(NoneInRange) else Ok(kept)
  }

  /** The hour list accepted by the times step: always a comma list, the named
      hours that lie in 0..23, in the order named; never empty. */
  function ParseHours(input: string): (r: Result<seq<int>, InputError>)
    ensures r.Ok? ==> |r.value| > 0 && forall i :: 0 <= i < |r.value| ==> IsHour(r.value[i])
    ensures r.Ok? <==> ParseEach(Split(Strip(input), ','), ParseToken).Ok?
                       && Filter(ParseEach(Split(Strip(input), ','), ParseToken).value, IsHour) != []
    ensures r.Ok? ==> r.value == Filter(ParseEach(Split(Strip(input), ','), ParseToken).value, IsHour)
  {
    match ParseEach(Split(Strip(input), ','), ParseToken)
    case Err(e) => Err(e)
    case Ok(hours) =>
      var kept := Filter(hours, IsHour);
      if |kept| == 0 then Err(NoneInRange) else Ok(kept)
  }

  /** The hours the times step accepts are exactly the listed numbers that
      lie in 0..23, in the order listed, repetitions kept; a list that parses
      but has none of them is refused as `NoneInRange`. */
  lemma ParseHoursValue(input: string)
    ensures ParseEach(Split(Strip(input), ','), ParseToken).Ok? ==>
              ParseHours(input) == Expected(ParseEach(Split(Strip(input), ','), ParseToken).value, IsHour)
  {
  }

  // ---------------------------------------------------------------------------
  // What the parsers do on well-formed messages

  /** `[str(x) for x in xs]`. */
  function Texts(xs: seq<int>): (ts: seq<string>)
    ensures |ts| == |xs| && forall i :: 0 <= i < |xs| ==> ts[i] == Decimal(xs[i])
  {
    seq(|xs|, i requires 0 <= i < |xs| => Decimal(xs[i]))
  }

  /** The message a user types for a list of numbers: `",".join(map(str, xs))`. */
  function Render(xs: seq<int>): string
    requires |xs| > 0
  {
    Join(Texts(xs), ',')
  }

  /** The result the steps give for a list of numbers: the ones in range, or
      `NoneInRange` when none is. */
  function Expected(xs: seq<int>, inRange: int -> bool): Result<seq<int>, InputError> {
    var kept := Filter(xs, inRange);
    if |kept| == 0 then Err(NoneInRange) else Ok(kept)
  }

  lemma DecimalChars(n: int)
    ensures forall k :: 0 <= k < |Decimal(n)| ==> Decimal(n)[k] == '-' || IsDigit(Decimal(n)[k])
    ensures n >= 0 ==> forall k :: 0 <= k < |Decimal(n)| ==> IsDigit(Decimal(n)[k])
  {
    if n < 0 {
      var d := Digits(-n);
      assert forall k :: 1 <= k < |Decimal(n)| ==> Decimal(n)[k] == d[k - 1];
    }
  }

  /** A rendered list is made of digits, minus signs and commas only, and
      splitting it at the commas gives back each number's text. */
  lemma RenderShape(xs: seq<int>)
    requires |xs| > 0
    ensures var s := Render(xs);
            && Strip(s) == s
            && Split(s, ',') == Texts(xs)
            && ((forall i :: 0 <= i < |xs| ==> xs[i] >= 0) ==> '-' !in s)
            && (',' in s <==> |xs| > 1)
  {
    RenderStripped(xs);
    RenderSplit(xs);
    RenderCommas(xs);
    if forall i :: 0 <= i < |xs| ==> xs[i] >= 0 {
      RenderNoMinus(xs);
    }
  }

  /** The text of a number is made of digits and at most a minus sign; with
      no negative number, of digits only. */
  lemma TextsChars(xs: seq<int>)
    ensures forall i, k :: 0 <= i < |xs| && 0 <= k < |Texts(xs)[i]| ==>
              Texts(xs)[i][k] == '-' || IsDigit(Texts(xs)[i][k])
    ensures (forall i :: 0 <= i < |xs| ==> xs[i] >= 0) ==>
              forall i, k :: 0 <= i < |xs| && 0 <= k < |Texts(xs)[i]| ==> IsDigit(Texts(xs)[i][k])
  {
    forall i | 0 <= i < |xs| {
      DecimalChars(xs[i]);
    }
  }

  lemma RenderStripped(xs: seq<int>)
    requires |xs| > 0
    ensures Strip(Render(xs)) == Render(xs)
  {
    TextsChars(xs);
    JoinChars(Texts(xs), ',', c => !IsSpace(c));
    StripKeeps(Render(xs));
  }

  /** No number's text holds a comma. */
  lemma TextsNoComma(xs: seq<int>, i: int)
    requires 0 <= i < |xs|
    ensures ',' !in Texts(xs)[i]
  {
    TextsChars(xs);
    var t := Texts(xs)[i];
    forall k | 0 <= k < |t|
      ensures t[k] != ','
    {
      assert t[k] == '-' || IsDigit(t[k]);
    }
  }

  lemma RenderSplit(xs: seq<int>)
    requires |xs| > 0
    ensures Split(Render(xs), ',') == Texts(xs)
  {
    forall i | 0 <= i < |xs|
      ensures ',' !in Texts(xs)[i]
    {
      TextsNoComma(xs, i);
    }
    SplitJoin(Texts(xs), ',');
  }

  lemma RenderCommas(xs: seq<int>)
    requires |xs| > 0
    ensures ',' in Render(xs) <==> |xs| > 1
  {
    var parts := Texts(xs);
    if |xs| > 1 {
      assert Render(xs)[|parts[0]|] == ',';
    } else {
      TextsNoComma(xs, 0);
      assert Render(xs) == parts[0];
    }
  }

  lemma RenderNoMinus(xs: seq<int>)
    requires |xs| > 0 && forall i :: 0 <= i < |xs| ==> xs[i] >= 0
    ensures '-' !in Render(xs)
  {
    TextsChars(xs);
    JoinChars(Texts(xs), ',', c => c != '-');
  }

  /** Numbers from `int(str(x))` in a parsed list are the numbers rendered. */
  lemma ParseEachRendered(xs: seq<int>)
    ensures ParseEach(Texts(xs), ParseToken) == Ok(xs)
  {
    var parts := Texts(xs);
    forall i | 0 <= i < |xs|
      ensures ParseToken(parts[i]) == Some(xs[i])
    {
      DecimalChars(xs[i]);
      StripKeeps(parts[i]);
      ParseIntDecimal(xs[i]);
    }
    var r := ParseEach(parts, ParseToken);
    assert r.Ok?;
    ParseEachValues(parts, ParseToken);
    assert r.value == xs;
  }

  /** A message whose stripped text has a comma but no dash reads as its
      comma tokens, each converted by `int()`. */
  lemma RawDaysOfList(input: string)
    requires '-' !in Strip(input) && ',' in Strip(input)
    ensures RawDays(input) == ParseEach(Split(Strip(input), ','), ParseToken)
  {
  }

  /** A message whose stripped text has neither a dash nor a comma reads as
      the single number `int()` makes of it. */
  lemma RawDaysOfSingle(input: string)
    requires '-' !in Strip(input) && ',' !in Strip(input) && ParseInt(Strip(input)).Some?
    ensures RawDays(input) == Ok([ParseInt(Strip(input)).value])
  {
  }

  /** A message whose stripped text splits at its dash into two numbers reads
      as the inclusive range between them. */
  lemma RawDaysOfRange(input: string)
    requires var s := Strip(input);
             && '-' in s && |Split(s, '-')| == 2
             && ParseInt(Split(s, '-')[0]).Some? && ParseInt(Split(s, '-')[1]).Some?
    ensures var ends := Split(Strip(input), '-');
            RawDays(input) == Ok(Range(ParseInt(ends[0]).value, ParseInt(ends[1]).value))
  {
  }

  lemma RawDaysOfRangeFails(input: string, i: int)
    requires '-' in Strip(input)
    requires 0 <= i < |Split(Strip(input), '-')| && ParseInt(Split(Strip(input), '-')[i]).None?
    ensures ParseDays(input) == Err(BadFormat)
  {
    var ends := Split(Strip(input), '-');
    if |ends| == 2 {
      assert i == 0 || i == 1;
    }
  }

  lemma RawDaysOfListFails(input: string)
    requires '-' !in Strip(input) && ',' in Strip(input)
    requires ParseEach(Split(Strip(input), ','), ParseToken).Err?
    ensures ParseDays(input) == Err(BadFormat)
  {
  }

  lemma RawDaysOfSingleFails(input: string)
    requires '-' !in Strip(input) && ',' !in Strip(input) && ParseInt(Strip(input)).None?
    ensures ParseDays(input) == Err(BadFormat)
  {
  }

  lemma DaysOfRaw(s: string, xs: seq<int>)
    requires RawDays(s) == Ok(xs)
    ensures ParseDays(s) == Expected(xs, IsDay)
  {
  }

  lemma RawDaysOfRendered(xs: seq<int>)
    requires |xs| > 0 && forall i :: 0 <= i < |xs| ==> xs[i] >= 0
    ensures RawDays(Render(xs)) == Ok(xs)
  {
    var s := Render(xs);
    assert Strip(s) == s && '-' !in s && (',' in s <==> |xs| > 1) by {
      RenderShape(xs);
    }
    if |xs| > 1 {
      assert ParseEach(Split(s, ','), ParseToken) == Ok(xs) by {
        RenderShape(xs);
        ParseEachRendered(xs);
      }
      RawDaysOfList(s);
    } else {
      assert ParseInt(s) == Some(xs[0]) by {
        ParseIntDecimal(xs[0]);
      }
      RawDaysOfSingle(s);
      assert [xs[0]] == xs;
    }
  }

  /** A comma list of days, or a single day, yields the days that lie in
      1..31 in the order typed; when none does the step is refused. */
  lemma DaysOfList(xs: seq<int>)
    requires |xs| > 0 && forall i :: 0 <= i < |xs| ==> xs[i] >= 0
    ensures ParseDays(Render(xs)) == Expected(xs, IsDay)
  {
    RawDaysOfRendered(xs);
    DaysOfRaw(Render(xs), xs);
  }

  /** Only the days of 1..31 survive from a range. */
  lemma {:induction false} FilterRange(a: int, b: int)
    ensures Filter(Range(a, b), IsDay) == Range(if a < 1 then 1 else a, if b > 31 then 31 else b)
    decreases b - a
  {
    if a <= b {
      FilterRange(a + 1, b);
      assert Range(a, b) == [a] + Range(a + 1, b);
      FilterConcat([a], Range(a + 1, b), IsDay);
      FilterSingle(a, IsDay);
    }
  }

  /** A typed range `A-B` has no surrounding whitespace and splits at its one
      dash into the two numbers' texts. */
  lemma RangeShape(a: nat, b: nat)
    ensures var s := Decimal(a) + "-" + Decimal(b);
            Strip(s) == s && Split(s, '-') == [Decimal(a), Decimal(b)] && '-' in s
  {
    var s := Decimal(a) + "-" + Decimal(b);
    var ends := [Decimal(a), Decimal(b)];
    DecimalChars(a);
    DecimalChars(b);
    assert Join(ends, '-') == s;
    JoinChars(ends, '-', c => !IsSpace(c));
    StripKeeps(s);
    SplitJoin(ends, '-');
    assert s[|Decimal(a)|] == '-';
  }

  /** `A-B` yields the days from A to B inclusive that lie in 1..31; a reversed
      range, or one wholly outside 1..31, is refused. */
  lemma DaysOfRange(a: nat, b: nat)
    ensures var lo, hi := (if a < 1 then 1 else a), (if b > 31 then 31 else b);
            ParseDays(Decimal(a) + "-" + Decimal(b))
              == if lo <= hi then Ok(Range(lo, hi)) else Err(NoneInRange)
  {
    var s := Decimal(a) + "-" + Decimal(b);
    assert RawDays(s) == Ok(Range(a, b)) by {
      RangeShape(a, b);
      ParseIntDecimal(a);
      ParseIntDecimal(b);
      RawDaysOfRange(s);
    }
    DaysOfRaw(s, Range(a, b));
    FilterRange(a, b);
  }

  /** Hours are always a comma list: the typed hours that lie in 0..23 are
      kept in order, negative ones included among those dropped. */
  lemma HoursOfList(xs: seq<int>)
    requires |xs| > 0
    ensures ParseHours(Render(xs)) == Expected(xs, IsHour)
  {
    RenderShape(xs);
    ParseEachRendered(xs);
    ParseHoursValue(Render(xs));
  }

  /** A character of the message inside one of the pieces it splits into. */
  lemma InSomePiece(s: string, sep: char, k: int) returns (i: int, j: int)
    requires 0 <= k < |s| && s[k] != sep
    ensures 0 <= i < |Split(s, sep)| && 0 <= j < |Split(s, sep)[i]|
    ensures Split(s, sep)[i][j] == s[k]
  {
    var parts := Split(s, sep);
    var c := s[k];
    JoinSplit(s, sep);
    if forall i, j :: 0 <= i < |parts| && 0 <= j < |parts[i]| ==> parts[i][j] != c {
      JoinChars(parts, sep, x => x != c);
      assert false;
    }
    i, j :| 0 <= i < |parts| && 0 <= j < |parts[i]| && parts[i][j] == c;
  }

  /** A letter, or any other character that is not a digit, a sign, a comma or
      whitespace, makes the dates step refuse the message as malformed. */
  lemma DaysRejectStrayCharacter(input: string, k: int)
    requires 0 <= k < |input|
    requires !IsSpace(input[k]) && !IsDigit(input[k])
    requires input[k] != '+' && input[k] != '-' && input[k] != ','
    ensures ParseDays(input) == Err(BadFormat)
  {
    var s := Strip(input);
    var m := k - Lead(input, IsSpace);
    assert 0 <= m < |s| && s[m] == input[k];
    if '-' in s {
      RangeRejects(input, m);
    } else if ',' in s {
      ListRejects(input, m);
    } else {
      ParseIntRejects(s, m);
      RawDaysOfSingleFails(input);
    }
  }

  /** A dash message with a character `int()` cannot skip or read, other than
      the dash, is refused. */
  lemma RangeRejects(input: string, m: int)
    requires '-' in Strip(input) && 0 <= m < |Strip(input)|
    requires var c := Strip(input)[m];
             !IsIntSpace(c) && !IsDigit(c) && c != '+' && c != '-'
    ensures ParseDays(input) == Err(BadFormat)
  {
    var i := PieceRejected(Strip(input), '-', m);
    RawDaysOfRangeFails(input, i);
  }

  /** A comma message without a dash, with a character that is neither
      whitespace, a sign, a digit nor the comma, is refused. */
  lemma ListRejects(input: string, m: int)
    requires '-' !in Strip(input) && ',' in Strip(input) && 0 <= m < |Strip(input)|
    requires var c := Strip(input)[m];
             !IsSpace(c) && !IsDigit(c) && c != '+' && c != ','
    ensures ParseDays(input) == Err(BadFormat)
  {
    var s := Strip(input);
    var i := TokenRejected(s, ',', m);
    assert ParseEach(Split(s, ','), ParseToken).Err?;
    RawDaysOfListFails(input);
  }

  /** Some piece of the message holds the stray character, so `int()` rejects
      that piece. */
  lemma PieceRejected(s: string, sep: char, m: int) returns (i: int)
    requires 0 <= m < |s| && s[m] != sep
    requires !IsIntSpace(s[m]) && !IsDigit(s[m]) && s[m] != '+' && s[m] != '-'
    ensures 0 <= i < |Split(s, sep)| && ParseInt(Split(s, sep)[i]).None?
  {
    var j;
    i, j := InSomePiece(s, sep, m);
    ParseIntRejects(Split(s, sep)[i], j);
  }

  /** A character that is neither whitespace, a sign nor a digit survives the
      strip of its token, so `int(t.strip())` rejects the token. */
  lemma ParseTokenRejects(t: string, j: int)
    requires 0 <= j < |t|
    requires !IsSpace(t[j]) && !IsDigit(t[j]) && t[j] != '+' && t[j] != '-'
    ensures ParseToken(t).None?
  {
    var r, lead := Strip(t), Lead(t, IsSpace);
    assert lead <= j < lead + |r| && r[j - lead] == t[j];
    ParseIntRejects(r, j - lead);
  }

  /** The same for a comma list, whose tokens are stripped before `int()`. */
  lemma TokenRejected(s: string, sep: char, m: int) returns (i: int)
    requires 0 <= m < |s| && s[m] != sep
    requires !IsSpace(s[m]) && !IsDigit(s[m]) && s[m] != '+' && s[m] != '-'
    ensures 0 <= i < |Split(s, sep)| && ParseToken(Split(s, sep)[i]).None?
  {
    var j;
    i, j := InSomePiece(s, sep, m);
    ParseTokenRejects(Split(s, sep)[i], j);
  }

  /** The same for the times step, where a dash is no separator either. */
  lemma HoursRejectStrayCharacter(input: string, k: int)
    requires 0 <= k < |input|
    requires !IsSpace(input[k]) && !IsDigit(input[k])
    requires input[k] != '+' && input[k] != '-' && input[k] != ','
    ensures ParseHours(input) == Err(BadFormat)
  {
    var s := Strip(input);
    var m := k - Lead(input, IsSpace);
    assert 0 <= m < |s| && s[m] == input[k];
    var i := TokenRejected(s, ',', m);
  }

  /** In a range the two ends go to `int()` without another strip, so a
      separator character 0x1c..0x1f inside the message, where the first
      `str.strip()` does not reach it, makes the dates step refuse the message
      as malformed. */
  lemma DaysRejectSeparator(input: string, k: int)
    requires '-' in Strip(input)
    requires Lead(input, IsSpace) <= k < Lead(input, IsSpace) + |Strip(input)|
    requires 28 <= input[k] as int <= 31
    ensures ParseDays(input) == Err(BadFormat)
  {
    var m := k - Lead(input, IsSpace);
    assert Strip(input)[m] == input[k];
    RangeRejects(input, m);
  }

  /** Stripping a number followed by one whitespace character gives the
      number back. */
  lemma StripTrailing(t: string, c: char)
    requires IsNumeral(t) && IsSpace(c)
    ensures Strip(t + [c]) == t
  {
    var u := t + [c];
    var r, lead := Strip(u), Lead(u, IsSpace);
    assert !IsSpace(u[0]);
    assert lead == 0;
    assert !IsSpace(u[|t| - 1]);
    assert |r| == |t|;
    assert r == u[..|t|];
  }

  /** `A`, a separator character 0x1c..0x1f, `-B`: the first end reaches
      `int()` with the separator still attached, so the dates step refuses the
      message as malformed. For A = 1, B = 3 this is the message "1\x1c-3". */
  lemma RangeWithSeparator(a: nat, b: nat, c: char)
    requires 28 <= c as int <= 31
    ensures ParseDays(Decimal(a) + [c] + "-" + Decimal(b)) == Err(BadFormat)
  {
    var s := Decimal(a) + [c] + "-" + Decimal(b);
    DecimalChars(a);
    DecimalChars(b);
    assert s[0] == Decimal(a)[0] && s[|s| - 1] == Decimal(b)[|Decimal(b)| - 1];
    StripKeeps(s);
    assert Lead(s, IsSpace) == 0;
    assert s[|Decimal(a)|] == c && s[|Decimal(a)| + 1] == '-';
    DaysRejectSeparator(s, |Decimal(a)|);
  }

  /** `A`, a separator character, `,B` has no surrounding whitespace and no
      dash, and splits at its comma into its two tokens. */
  lemma ListWithSeparatorShape(a: nat, b: nat, c: char)
    requires 28 <= c as int <= 31
    ensures var first, second := Decimal(a) + [c], Decimal(b);
            var s := first + "," + second;
            && Strip(s) == s && '-' !in s && ',' in s
            && Split(s, ',') == [first, second]
  {
    var first, second := Decimal(a) + [c], Decimal(b);
    var s := first + "," + second;
    DecimalChars(a);
    DecimalChars(b);
    assert ',' !in first && ',' !in second;
    assert Split(s, ',') == [first, second] by {
      SplitJoin([first, second], ',');
      assert Join([first, second], ',') == s;
    }
    assert s[0] == first[0] && s[|s| - 1] == second[|second| - 1] && s[|first|] == ',';
    StripKeeps(s);
  }

  /** `int(t.strip())` reads `A` followed by a separator character as A. */
  lemma TokenWithSeparator(a: nat, c: char)
    requires 28 <= c as int <= 31
    ensures ParseToken(Decimal(a) + [c]) == Some(a)
  {
    DecimalChars(a);
    StripTrailing(Decimal(a), c);
    ParseIntDecimal(a);
  }

  /** `A`, a separator character 0x1c..0x1f, `,B`: the first token is stripped
      before `int()` sees it, so the message names A and B. For A = 1, B = 3
      this is the message "1\x1c,3", which names days 1 and 3. */
  lemma ListWithSeparator(a: nat, b: nat, c: char)
    requires 28 <= c as int <= 31
    ensures ParseDays(Decimal(a) + [c] + "," + Decimal(b)) == Expected([a, b], IsDay)
  {
    var first, second := Decimal(a) + [c], Decimal(b);
    var s := first + "," + second;
    assert RawDays(s) == Ok([a, b]) by {
      ListWithSeparatorShape(a, b, c);
      TokenWithSeparator(a, c);
      DecimalChars(b);
      StripKeeps(second);
      ParseIntDecimal(b);
      TwoTokens(first, second, ParseToken, a, b);
      RawDaysOfList(s);
    }
    DaysOfRaw(s, [a, b]);
  }

  /** Two tokens that `conv` reads convert to the two numbers. */
  lemma TwoTokens(first: string, second: string, conv: string -> Option<int>, x: int, y: int)
    requires conv(first) == Some(x) && conv(second) == Some(y)
    ensures ParseEach([first, second], conv) == Ok([x, y])
  {
    var r := ParseEach([first, second], conv);
    assert r.Ok? && |r.value| == 2;
    ParseEachValues([first, second], conv);
    assert r.value[0] == x && r.value[1] == y;
    assert r.value == [x, y];
  }
}

=== FILE: reminders.dfy ===
/** The reminder store `reminders_db` and the job queue: the records kept per
    chat, listing them in time order, deleting one by its listed number, and
    the startup pass that drops past reminders and reschedules the rest. */
module Reminders {
  import opened Results
  import opened Text
  import opened Seqs
  import opened Calendar
  import opened Stamp
  import opened Sorting

  /** A reminder's `id`, `f"{chat_id}_{timestamp}"`: it names one chat and one
      fire time, and distinct pairs give distinct ids. */
  datatype Id = Id(owner: int, fireAt: DateTime)

  /** One stored record `{id, task, datetime, chat_id}`; `datetime` is the
      `%Y-%m-%d %H:%M:%S` text. */
  datatype Reminder = Reminder(id: Id, task: string, datetime: string, chatId: int)

  /** The `data` a job carries to `send_reminder`. */
  datatype Payload = Payload(task: string, chatId: int)

  /** A pending `run_once` job. */
  datatype Job = Job(name: Id, when: DateTime, payload: Payload)

  /** `reminders_db`: the records of each chat, keyed by chat id. */
  type Store = map<int, seq<Reminder>>

  /** The bot's state: the store in memory, the store as last written by
      `save_reminders`, and the pending jobs in scheduling order. */
  datatype Bot = Bot(db: Store, saved: Store, jobs: seq<Job>)

  /** `reminders_db.get(str(chat_id), [])`. */
  function Stored(db: Store, owner: int): seq<Reminder> {
    if owner in db then db[owner] else []
  }

  /** The sort key of listing, `x['datetime']`. */
  function StampOf(r: Reminder): string {
    r.datetime
  }

  /** The record built for a fire time `at` in `owner`'s chat. */
  function Entry(owner: int, task: string, at: DateTime): (r: Reminder)
    requires Valid(at)
    ensures Parse(r.datetime) == Some(at)
    ensures r.id == Id(owner, at) && r.task == task && r.chatId == owner
  {
    ParseFormat(at);
    Reminder(Id(owner, at), task, Format(at), owner)
  }

  /** The job scheduled for a record of `owner` whose stamp reads back. */
  function JobOf(owner: int, r: Reminder): Job
    requires Parse(r.datetime).Some?
  {
    Job(r.id, Parse(r.datetime).value, Payload(r.task, owner))
  }

  /** A record as the bot writes it for `owner`: a stamp that reads back, the
      id of that chat and time, and the chat's own id. */
  predicate WellFormedIn(owner: int, r: Reminder) {
    Parse(r.datetime).Some? && r.id == Id(owner, Parse(r.datetime).value) && r.chatId == owner
  }

  predicate WellFormed(db: Store) {
    forall owner, i :: owner in db && 0 <= i < |db[owner]| ==> WellFormedIn(owner, db[owner][i])
  }

  // ---------------------------------------------------------------------------
  // Listing (`/myreminders`)

  /** One numbered line of the listing. */
  datatype Line = Line(number: int, task: string, at: DateTime)

  /** The reply: nothing stored, the numbered lines, or a `ValueError` from a
      stored stamp that does not read back (no reply is sent). */
  datatype Listing = NoReminders | Shown(lines: seq<Line>) | Unreadable

  datatype Listed = Listed(bot: Bot, listing: Listing)

  /** `enumerate(rs, first)` with each stamp read back by `strptime`. */
  function Lines(rs: seq<Reminder>, first: int): (r: Option<seq<Line>>)
    ensures r.Some? <==> forall i :: 0 <= i < |rs| ==> Parse(rs[i].datetime).Some?
    ensures r.Some? ==> |r.value| == |rs|
    ensures r.Some? ==> forall i :: 0 <= i < |rs| ==>
              r.value[i] == Line(first + i, rs[i].task, Parse(rs[i].datetime).value)
  {
    if |rs| == 0 then Some([])
    else
      match Parse(rs[0].datetime)
      case None => None
      case Some(at) =>
        match Lines(rs[1..], first + 1)
        case None => None
        case Some(rest) => Some([Line(first, rs[0].task, at)] + rest)
  }

  /** `/myreminders`: the chat's list is sorted by stamp IN PLACE (the list
      object is the one held by the store), then shown numbered from 1. The
      sort is not saved, and a chat without reminders is left alone. */
  function List(bot: Bot, owner: int): (r: Listed)
    ensures r.bot.saved == bot.saved && r.bot.jobs == bot.jobs
    ensures r.bot.db.Keys == bot.db.Keys
    ensures forall o :: o in bot.db && o != owner ==> r.bot.db[o] == bot.db[o]
    ensures multiset(Stored(r.bot.db, owner)) == multiset(Stored(bot.db, owner))
    ensures Sorted(Stored(r.bot.db, owner), StampOf)
    ensures r.listing.NoReminders? <==> Stored(bot.db, owner) == []
    ensures r.listing.Shown? ==>
              var rs := Stored(r.bot.db, owner);
              |r.listing.lines| == |rs| &&
              forall i :: 0 <= i < |rs| ==> r.listing.lines[i].number == i + 1 && r.listing.lines[i].task == rs[i].task
  {
    var rs := Stored(bot.db, owner);
    if rs == [] then Listed(bot, NoReminders)
    else
      var sorted := SortBy(rs, StampOf);
      var next := bot.(db := bot.db[owner := sorted]);
      match Lines(sorted, 1)
      case None => Listed(next, Unreadable)
      case Some(lines) => Listed(next, Shown(lines))
  }

  /** Every element of a permutation of a well-formed list is well formed. */
  lemma PermutedWellFormed(owner: int, rs: seq<Reminder>, ps: seq<Reminder>)
    requires forall i :: 0 <= i < |rs| ==> WellFormedIn(owner, rs[i])
    requires multiset(ps) == multiset(rs)
    ensures forall i :: 0 <= i < |ps| ==> WellFormedIn(owner, ps[i])
  {
    forall i | 0 <= i < |ps|
      ensures WellFormedIn(owner, ps[i])
    {
      assert ps[i] in multiset(rs);
      var m :| 0 <= m < |rs| && rs[m] == ps[i];
    }
  }

  /** Listing keeps the store well formed. */
  lemma ListWellFormed(bot: Bot, owner: int)
    requires WellFormed(bot.db)
    ensures WellFormed(List(bot, owner).bot.db)
  {
    var db := List(bot, owner).bot.db;
    if owner in bot.db {
      PermutedWellFormed(owner, bot.db[owner], db[owner]);
    }
  }

  /** Two stamps the bot wrote compare as strings the way their times compare. */
  lemma StampOrder(a: string, b: string)
    requires Parse(a).Some? && Parse(b).Some?
    ensures !StrLess(b, a) <==> NotAfter(Parse(a).value, Parse(b).value)
  {
    var ta, tb := Parse(a).value, Parse(b).value;
    assert StrLess(b, a) <==> Before(tb, ta) by {
      FormatParse(a);
      FormatParse(b);
      FormatOrder(tb, ta);
    }
    BeforeTotal(ta, tb);
  }

  /** On a well-formed store the listing is always shown (when there is
      anything to show) and runs in time order: line i fires no later than
      line i + 1. */
  lemma ListChronological(bot: Bot, owner: int)
    requires WellFormed(bot.db)
    ensures !List(bot, owner).listing.Unreadable?
    ensures var l := List(bot, owner).listing;
            l.Shown? ==> forall i, j :: 0 <= i < j < |l.lines| ==> NotAfter(l.lines[i].at, l.lines[j].at)
  {
    ListWellFormed(bot, owner);
    var r := List(bot, owner);
    var rs := Stored(r.bot.db, owner);
    if rs != [] {
      assert forall i :: 0 <= i < |rs| ==> WellFormedIn(owner, rs[i]);
      var lines := Lines(rs, 1).value;
      forall i, j | 0 <= i < j < |lines|
        ensures NotAfter(lines[i].at, lines[j].at)
      {
        StampOrder(rs[i].datetime, rs[j].datetime);
      }
    }
  }

  /** Reminders that fire at the same time keep the order they were stored in. */
  lemma ListStable(bot: Bot, owner: int, stamp: string)
    ensures Filter(Stored(List(bot, owner).bot.db, owner), HasKey(StampOf, stamp))
         == Filter(Stored(bot.db, owner), HasKey(StampOf, stamp))
  {
    SortStable(Stored(bot.db, owner), StampOf, stamp);
  }

  /** Listing a chat whose list is already in stamp order changes nothing. */
  lemma ListSortedStore(bot: Bot, owner: int)
    requires Sorted(Stored(bot.db, owner), StampOf)
    ensures List(bot, owner).bot == bot
    ensures List(bot, owner).listing == if Stored(bot.db, owner) == [] then NoReminders
                                        else if Lines(Stored(bot.db, owner), 1).None? then Unreadable
                                        else Shown(Lines(Stored(bot.db, owner), 1).value)
  {
    var rs := Stored(bot.db, owner);
    if rs != [] {
      SortSorted(rs, StampOf);
      assert bot.db[owner := rs] == bot.db;
    }
  }

  /** Listing again changes nothing further and shows the same lines. */
  lemma ListIdempotent(bot: Bot, owner: int)
    ensures List(List(bot, owner).bot, owner) == List(bot, owner)
  {
    var once := List(bot, owner);
    ListSortedStore(once.bot, owner);
    var rs := Stored(bot.db, owner);
    if rs != [] {
      assert Stored(once.bot.db, owner) == SortBy(rs, StampOf);
    }
  }

  // ---------------------------------------------------------------------------
  // Deleting (`/delete <number>`)

  /** The reply to `/delete`: no argument, an argument `int()` rejects, a
      number outside the list, or the task of the removed reminder. */
  datatype Reply = MissingNumber | NotANumber | NoSuchReminder | Deleted(task: string)

  datatype Deletion = Deletion(bot: Bot, reply: Reply)

  /** The jobs `get_jobs_by_name(id)` does not return. */
  function NotNamed(id: Id): Job -> bool {
    (j: Job) => j.name != id
  }

  /** The k-th record (0-based) of a chat taken out of its list, the store
      saved, and every job named by the record's id cancelled. */
  function Remove(bot: Bot, owner: int, index: int): (b: Bot)
    requires 0 <= index < |Stored(bot.db, owner)|
    ensures var rs := Stored(bot.db, owner);
            && b.db.Keys == bot.db.Keys
            && (forall o :: o in bot.db && o != owner ==> b.db[o] == bot.db[o])
            && |b.db[owner]| == |rs| - 1
            && (forall i :: 0 <= i < index ==> b.db[owner][i] == rs[i])
            && (forall i :: index <= i < |rs| - 1 ==> b.db[owner][i] == rs[i + 1])
            && b.saved == b.db
            && (forall j :: j in b.jobs <==> j in bot.jobs && j.name != rs[index].id)
  {
    var rs := Stored(bot.db, owner);
    var db := bot.db[owner := RemoveAt(rs, index)];
    Bot(db, db, Filter(bot.jobs, NotNamed(rs[index].id)))
  }

  /** `/delete k`: removes the k-th reminder of the chat's list as it now
      stands (1-based), saves the store and cancels every job named by the
      removed reminder's id. Any other outcome changes nothing. */
  function Delete(bot: Bot, owner: int, args: seq<string>): (d: Deletion)
    ensures d.reply == MissingNumber <==> |args| == 0
    ensures d.reply == NotANumber <==> |args| > 0 && ParseInt(args[0]).None?
    ensures d.reply.Deleted? <==> |args| > 0 && ParseInt(args[0]).Some?
                                  && 1 <= ParseInt(args[0]).value <= |Stored(bot.db, owner)|
    ensures !d.reply.Deleted? ==> d.bot == bot
    ensures d.reply.Deleted? ==>
              var rs, k := Stored(bot.db, owner), ParseInt(args[0]).value;
              && d.reply.task == rs[k - 1].task
              && d.bot == Remove(bot, owner, k - 1)
  {
    if |args| == 0 then Deletion(bot, MissingNumber)
    else
      match ParseInt(args[0])
      case None => Deletion(bot, NotANumber)
      case Some(n) =>
        var index := n - 1;
        var rs := Stored(bot.db, owner);
        if 0 <= index < |rs| then
          Deletion(Remove(bot, owner, index), Deleted(rs[index].task))
        else
          Deletion(bot, NoSuchReminder)
  }

  /** Cancelling by name takes out every copy of every job with the removed
      id and keeps every copy of every other job, in their order. */
  lemma DeleteCancels(bot: Bot, owner: int, args: seq<string>, j: Job)
    requires Delete(bot, owner, args).reply.Deleted?
    ensures var removed := Stored(bot.db, owner)[ParseInt(args[0]).value - 1];
            multiset(Delete(bot, owner, args).bot.jobs)[j]
              == if j.name == removed.id then 0 else multiset(bot.jobs)[j]
  {
    var removed := Stored(bot.db, owner)[ParseInt(args[0]).value - 1];
    FilterMultiset(bot.jobs, NotNamed(removed.id), j);
  }

  /** Deleting keeps the store well formed. */
  lemma DeleteWellFormed(bot: Bot, owner: int, args: seq<string>)
    requires WellFormed(bot.db)
    ensures WellFormed(Delete(bot, owner, args).bot.db)
  {
    var d := Delete(bot, owner, args);
    if d.reply.Deleted? {
      var rs, k := Stored(bot.db, owner), ParseInt(args[0]).value;
      forall i | 0 <= i < |d.bot.db[owner]|
        ensures WellFormedIn(owner, d.bot.db[owner][i])
      {
        if i < k - 1 {
          assert d.bot.db[owner][i] == rs[i];
        } else {
          assert d.bot.db[owner][i] == rs[i + 1];
        }
      }
    }
  }

  /** The chat's list after `/delete` and the removed record together are
      the list before: exactly one record goes, every other stays. */
  lemma DeleteKeepsRest(bot: Bot, owner: int, args: seq<string>)
    requires Delete(bot, owner, args).reply.Deleted?
    ensures var rs, k := Stored(bot.db, owner), ParseInt(args[0]).value;
            multiset(Delete(bot, owner, args).bot.db[owner]) + multiset{rs[k - 1]} == multiset(rs)
  {
    var rs, k := Stored(bot.db, owner), ParseInt(args[0]).value;
    assert Delete(bot, owner, args).bot.db[owner] == RemoveAt(rs, k - 1);
    RemoveAtMultiset(rs, k - 1);
  }

  /** `/delete k` right after `/myreminders` removes the reminder shown on
      line k: the listing's sort is kept in the store, so the numbers the user
      sees are the numbers delete uses. */
  lemma DeleteShown(bot: Bot, owner: int, k: nat)
    requires List(bot, owner).listing.Shown?
    requires 1 <= k <= |List(bot, owner).listing.lines|
    ensures var listed := List(bot, owner);
            Delete(listed.bot, owner, [Decimal(k)]).reply == Deleted(listed.listing.lines[k - 1].task)
  {
    ParseIntDecimal(k);
  }

  /** Two reminders with one id, as "5,5" for the days creates: deleting one
      cancels the job of the other too, which stays listed but will not fire
      until the next startup reschedules it. */
  lemma DeleteCancelsTwin(bot: Bot, owner: int, args: seq<string>, twin: nat)
    requires Delete(bot, owner, args).reply.Deleted?
    requires var rs, k := Stored(bot.db, owner), ParseInt(args[0]).value;
             twin < |rs| && twin != k - 1 && rs[twin].id == rs[k - 1].id
    ensures var rs, k := Stored(bot.db, owner), ParseInt(args[0]).value;
            var after := Delete(bot, owner, args).bot;
            && rs[twin] in after.db[owner]
            && forall j :: j in after.jobs ==> j.name != rs[twin].id
  {
    var rs, k := Stored(bot.db, owner), ParseInt(args[0]).value;
    var after := Delete(bot, owner, args).bot;
    if twin < k - 1 {
      assert after.db[owner][twin] == rs[twin];
    } else {
      assert after.db[owner][twin - 1] == rs[twin];
    }
  }

  // ---------------------------------------------------------------------------
  // Startup (`load_existing_reminders`)

  /** A record whose stamp reads back as a time after `now`. */
  function Upcoming(now: DateTime): Reminder -> bool {
    (r: Reminder) => Parse(r.datetime).Some? && Before(now, Parse(r.datetime).value)
  }

  /** The records of one chat kept at startup, and their jobs. */
  datatype Replay = Replay(kept: seq<Reminder>, jobs: seq<Job>)

  /** The inner loop of startup over one chat's records: every stamp is read
      back, future ones are kept and rescheduled for that chat, past ones are
      dropped. None is the `ValueError` of a stamp that does not read back,
      which stops the bot from starting. */
  function ReplayOwner(owner: int, rs: seq<Reminder>, now: DateTime): (r: Option<Replay>)
    ensures r.Some? <==> forall i :: 0 <= i < |rs| ==> Parse(rs[i].datetime).Some?
    ensures r.Some? ==> r.value.kept == Filter(rs, Upcoming(now))
    ensures r.Some? ==> |r.value.jobs| == |r.value.kept|
    ensures r.Some? ==> forall i :: 0 <= i < |r.value.kept| ==>
              Parse(r.value.kept[i].datetime).Some? && r.value.jobs[i] == JobOf(owner, r.value.kept[i])
  {
    if |rs| == 0 then Some(Replay([], []))
    else
      match Parse(rs[0].datetime)
      case None => None
      case Some(at) =>
        match ReplayOwner(owner, rs[1..], now)
        case None => None
        case Some(rest) =>
          if Before(now, at) then Some(Replay([rs[0]] + rest.kept, [JobOf(owner, rs[0])] + rest.jobs))
          else Some(rest)
  }

  /** What startup leaves behind: the bot and `loaded_count`. */
  datatype Startup = Startup(bot: Bot, loaded: nat)

  /** The number of reminders of the chats in `order` that fire after `now`. */
  function UpcomingCount(db: Store, order: seq<int>, now: DateTime): nat
    requires forall o :: o in order ==> o in db
  {
    if |order| == 0 then 0
    else
      var owner := order[|order| - 1];
      assert owner in order;
      UpcomingCount(db, order[..|order| - 1], now) + |Filter(db[owner], Upcoming(now))|
  }

  /** Startup over the chats in `order`, the store's iteration order: each
      chat's list is replaced by its future records, each kept record gets
      one job, and the store is saved. The job queue starts empty. None is a
      stamp that does not read back. */
  function Reconcile(db: Store, order: seq<int>, now: DateTime): (r: Option<Startup>)
    requires forall o :: o in order ==> o in db
    ensures r.Some? ==> r.value.bot.db.Keys == db.Keys
    ensures r.Some? ==> forall o :: o in order ==> r.value.bot.db[o] == Filter(db[o], Upcoming(now))
    ensures r.Some? ==> forall o :: o in db && o !in order ==> r.value.bot.db[o] == db[o]
    ensures r.Some? ==> r.value.bot.saved == r.value.bot.db
    ensures r.Some? ==> r.value.loaded == |r.value.bot.jobs|
  {
    if |order| == 0 then Some(Startup(Bot(db, db, []), 0))
    else
      var owner := order[|order| - 1];
      match Reconcile(db, order[..|order| - 1], now)
      case None => None
      case Some(s) =>
        match ReplayOwner(owner, db[owner], now)
        case None => None
        case Some(p) =>
          var next := s.bot.db[owner := p.kept];
          Some(Startup(Bot(next, next, s.bot.jobs + p.jobs), s.loaded + |p.kept|))
  }

  /** One step of startup: the last chat of `order` after all the others. */
  lemma ReconcileLast(db: Store, order: seq<int>, now: DateTime, pre: Startup, p: Replay)
    requires forall o :: o in order ==> o in db
    requires |order| > 0
    requires Reconcile(db, order[..|order| - 1], now) == Some(pre)
    requires ReplayOwner(order[|order| - 1], db[order[|order| - 1]], now) == Some(p)
    ensures var r := Reconcile(db, order, now);
            && r.Some?
            && r.value.bot.db == pre.bot.db[order[|order| - 1] := p.kept]
            && r.value.bot.saved == r.value.bot.db
            && r.value.bot.jobs == pre.bot.jobs + p.jobs
            && r.value.loaded == pre.loaded + |p.kept|
  {
  }

  /** A chat of `order` is the last one or one of those before it. */
  lemma InOrder(order: seq<int>, o: int)
    requires |order| > 0
    ensures o in order <==> o in order[..|order| - 1] || o == order[|order| - 1]
  {
    assert order == order[..|order| - 1] + [order[|order| - 1]];
  }

  /** Startup fails exactly when some chat in `order` holds a stamp that does
      not read back. */
  lemma {:induction false} ReconcileSucceeds(db: Store, order: seq<int>, now: DateTime)
    requires forall o :: o in order ==> o in db
    ensures Reconcile(db, order, now).Some?
            <==> forall o, i :: o in order && 0 <= i < |db[o]| ==> Parse(db[o][i].datetime).Some?
  {
    if |order| > 0 {
      var owner, prefix := order[|order| - 1], order[..|order| - 1];
      assert owner in order;
      ReconcileSucceeds(db, prefix, now);
      forall o
        ensures o in order <==> o in prefix || o == owner
      {
        InOrder(order, o);
      }
    }
  }

  /** `loaded_count` is the number of records, over all chats in `order`,
      that fire after `now`. */
  lemma {:induction false} ReconcileCounts(db: Store, order: seq<int>, now: DateTime)
    requires forall o :: o in order ==> o in db
    requires Reconcile(db, order, now).Some?
    ensures Reconcile(db, order, now).value.loaded == UpcomingCount(db, order, now)
  {
    if |order| > 0 {
      var owner, prefix := order[|order| - 1], order[..|order| - 1];
      assert owner in order;
      ReconcileCounts(db, prefix, now);
    }
  }

  /** Every job startup schedules fires after `now`. */
  lemma {:induction false} ReconcileJobsUpcoming(db: Store, order: seq<int>, now: DateTime)
    requires forall o :: o in order ==> o in db
    requires Reconcile(db, order, now).Some?
    ensures var jobs := Reconcile(db, order, now).value.bot.jobs;
            forall k :: 0 <= k < |jobs| ==> Before(now, jobs[k].when)
  {
    if |order| > 0 {
      var owner, prefix := order[|order| - 1], order[..|order| - 1];
      assert owner in order;
      var pre := Reconcile(db, prefix, now).value;
      var p := ReplayOwner(owner, db[owner], now).value;
      ReconcileLast(db, order, now, pre, p);
      ReconcileJobsUpcoming(db, prefix, now);
      assert forall m :: 0 <= m < |p.jobs| ==> Before(now, p.jobs[m].when) by {
        forall m | 0 <= m < |p.jobs|
          ensures Before(now, p.jobs[m].when)
        {
          assert p.jobs[m] == JobOf(owner, p.kept[m]);
          assert Upcoming(now)(p.kept[m]);
        }
      }
      var jobs := Reconcile(db, order, now).value.bot.jobs;
      assert jobs == pre.bot.jobs + p.jobs;
    }
  }

  /** Every record startup keeps has its job: named by the record's id, at
      the record's time, for the record's chat. */
  lemma {:induction false} ReconcileSchedules(db: Store, order: seq<int>, now: DateTime)
    requires forall o :: o in order ==> o in db
    requires Reconcile(db, order, now).Some?
    ensures var s := Reconcile(db, order, now).value;
            forall o, i :: o in order && 0 <= i < |s.bot.db[o]| ==>
              Parse(s.bot.db[o][i].datetime).Some? && JobOf(o, s.bot.db[o][i]) in s.bot.jobs
  {
    if |order| > 0 {
      var owner, prefix := order[|order| - 1], order[..|order| - 1];
      assert owner in order;
      var pre := Reconcile(db, prefix, now).value;
      var p := ReplayOwner(owner, db[owner], now).value;
      ReconcileLast(db, order, now, pre, p);
      var s := Reconcile(db, order, now).value;
      ReconcileSchedules(db, prefix, now);
      forall o, i | o in order && 0 <= i < |s.bot.db[o]|
        ensures Parse(s.bot.db[o][i].datetime).Some? && JobOf(o, s.bot.db[o][i]) in s.bot.jobs
      {
        if o == owner {
          assert s.bot.db[o] == p.kept;
          assert s.bot.jobs[|pre.bot.jobs| + i] == p.jobs[i];
        } else {
          InOrder(order, o);
          assert s.bot.db[o] == pre.bot.db[o];
          assert JobOf(o, pre.bot.db[o][i]) in pre.bot.jobs;
        }
      }
    }
  }

  /** On a well-formed store startup never fails, and what it keeps is still
      well formed. */
  lemma ReconcileWellFormed(db: Store, order: seq<int>, now: DateTime)
    requires forall o :: o in order ==> o in db
    requires WellFormed(db)
    ensures Reconcile(db, order, now).Some?
    ensures WellFormed(Reconcile(db, order, now).value.bot.db)
  {
    ReconcileSucceeds(db, order, now);
    var r := Reconcile(db, order, now);
    var next := r.value.bot.db;
    forall o, i | o in next && 0 <= i < |next[o]|
      ensures WellFormedIn(o, next[o][i])
    {
      if o in order {
        assert next[o] == Filter(db[o], Upcoming(now));
        assert next[o][i] in db[o];
      }
    }
  }

  /** Replaying a chat's kept records keeps all of them and schedules the same
      jobs again. */
  lemma ReplayKept(owner: int, rs: seq<Reminder>, now: DateTime)
    requires ReplayOwner(owner, rs, now).Some?
    ensures var p := ReplayOwner(owner, rs, now).value;
            ReplayOwner(owner, p.kept, now) == Some(p)
  {
    var p := ReplayOwner(owner, rs, now).value;
    FilterKeepsAll(p.kept, Upcoming(now));
    var q := ReplayOwner(owner, p.kept, now);
    assert q.Some?;
    assert q.value.jobs == p.jobs;
  }

  /** Startup over a store whose chats in `order` hold only what a previous
      startup kept changes none of them and schedules the same jobs. */
  lemma {:induction false} ReconcileStable(db: Store, again: Store, order: seq<int>, now: DateTime)
    requires forall o :: o in order ==> o in db
    requires Reconcile(db, order, now).Some?
    requires again.Keys == db.Keys
    requires forall o :: o in order ==> again[o] == Reconcile(db, order, now).value.bot.db[o]
    ensures var s, r := Reconcile(db, order, now).value, Reconcile(again, order, now);
            && r.Some?
            && r.value.bot.db == again
            && r.value.bot.jobs == s.bot.jobs
            && r.value.loaded == s.loaded
  {
    if |order| > 0 {
      var owner, prefix := order[|order| - 1], order[..|order| - 1];
      assert owner in order;
      var pre := Reconcile(db, prefix, now).value;
      var p := ReplayOwner(owner, db[owner], now).value;
      ReconcileLast(db, order, now, pre, p);
      var s := Reconcile(db, order, now).value;
      assert again[owner] == p.kept;
      var pre2 := Reconcile(again, prefix, now);
      assert pre2.Some? && pre2.value.bot.db == again && pre2.value.bot.jobs == pre.bot.jobs
             && pre2.value.loaded == pre.loaded by {
        forall o | o in prefix
          ensures again[o] == pre.bot.db[o]
        {
          InOrder(order, o);
        }
        ReconcileStable(db, again, prefix, now);
      }
      assert ReplayOwner(owner, again[owner], now) == Some(p) by {
        ReplayKept(owner, db[owner], now);
      }
      ReconcileLast(again, order, now, pre2.value, p);
      UpdateSame(again, owner, p.kept);
    }
  }

  /** Running startup twice at the same moment is the same as running it once. */
  lemma ReconcileIdempotent(db: Store, order: seq<int>, now: DateTime)
    requires forall o :: o in order ==> o in db
    requires Reconcile(db, order, now).Some?
    ensures var s := Reconcile(db, order, now).value;
            Reconcile(s.bot.db, order, now) == Some(s)
  {
    var s := Reconcile(db, order, now).value;
    ReconcileStable(db, s.bot.db, order, now);
    var r := Reconcile(s.bot.db, order, now).value;
    assert r.bot == s.bot;
  }

  // ---------------------------------------------------------------------------
  // Every pending job can be reached from the store

  /** Some record of `rs` carries the id `id`. */
  predicate Names(rs: seq<Reminder>, id: Id) {
    exists r :: r in rs && r.id == id
  }

  /** Every pending job has a record with its name in the chat it will be
      sent to, so `/myreminders` shows it and `/delete` can cancel it. */
  predicate Backed(bot: Bot) {
    forall j :: j in bot.jobs ==> Names(Stored(bot.db, j.payload.chatId), j.name)
  }

  /** A list with the same records names the same ids. */
  lemma PermutedNames(rs: seq<Reminder>, ps: seq<Reminder>, id: Id)
    requires multiset(ps) == multiset(rs)
    requires Names(rs, id)
    ensures Names(ps, id)
  {
    var r :| r in rs && r.id == id;
    assert r in multiset(rs);
  }

  /** Listing keeps every job reachable. */
  lemma ListBacked(bot: Bot, owner: int)
    requires Backed(bot)
    ensures Backed(List(bot, owner).bot)
  {
    var after := List(bot, owner).bot;
    forall j | j in after.jobs
      ensures Names(Stored(after.db, j.payload.chatId), j.name)
    {
      if j.payload.chatId == owner {
        PermutedNames(Stored(bot.db, owner), Stored(after.db, owner), j.name);
      } else {
        assert Stored(after.db, j.payload.chatId) == Stored(bot.db, j.payload.chatId);
      }
    }
  }

  /** Deleting keeps every remaining job reachable: the jobs named by the
      removed record are exactly the ones cancelled. */
  lemma DeleteBacked(bot: Bot, owner: int, args: seq<string>)
    requires Backed(bot)
    ensures Backed(Delete(bot, owner, args).bot)
  {
    var d := Delete(bot, owner, args);
    if d.reply.Deleted? {
      var rs, index := Stored(bot.db, owner), ParseInt(args[0]).value - 1;
      var removed := rs[index];
      assert d.bot.db == bot.db[owner := RemoveAt(rs, index)];
      forall j | j in d.bot.jobs
        ensures Names(Stored(d.bot.db, j.payload.chatId), j.name)
      {
        assert j in bot.jobs && j.name != removed.id;
        if j.payload.chatId == owner {
          var r :| r in rs && r.id == j.name;
          RemoveKeeps(rs, index, r);
        } else {
          assert Stored(d.bot.db, j.payload.chatId) == Stored(bot.db, j.payload.chatId);
        }
      }
    }
  }

  /** Adding records to a chat together with jobs named by them, for that
      chat, keeps every job reachable. */
  lemma BackedGrow(bot: Bot, owner: int, more: seq<Reminder>, jobs: seq<Job>, saved: Store)
    requires Backed(bot)
    requires forall j :: j in jobs ==> j.payload.chatId == owner && Names(more, j.name)
    ensures Backed(Bot(bot.db[owner := Stored(bot.db, owner) + more], saved, bot.jobs + jobs))
  {
    var db := bot.db[owner := Stored(bot.db, owner) + more];
    forall j | j in bot.jobs + jobs
      ensures Names(Stored(db, j.payload.chatId), j.name)
    {
      if j in bot.jobs {
        if j.payload.chatId == owner {
          var r :| r in Stored(bot.db, owner) && r.id == j.name;
          assert r in Stored(db, owner);
        } else {
          assert Stored(db, j.payload.chatId) == Stored(bot.db, j.payload.chatId);
        }
      } else {
        var r :| r in more && r.id == j.name;
        assert r in Stored(db, owner);
      }
    }
  }

  /** Every job startup schedules is reachable, whatever the store held
      before: each is scheduled from a record it keeps, for that record's
      chat. */
  lemma {:induction false} ReconcileBacked(db: Store, order: seq<int>, now: DateTime)
    requires forall o :: o in order ==> o in db
    requires Reconcile(db, order, now).Some?
    ensures Backed(Reconcile(db, order, now).value.bot)
    ensures forall j :: j in Reconcile(db, order, now).value.bot.jobs ==> j.payload.chatId in order
  {
    if |order| > 0 {
      var owner, prefix := order[|order| - 1], order[..|order| - 1];
      assert owner in order;
      var pre := Reconcile(db, prefix, now).value;
      var p := ReplayOwner(owner, db[owner], now).value;
      ReconcileLast(db, order, now, pre, p);
      ReconcileBacked(db, prefix, now);
      var s := Reconcile(db, order, now).value;
      forall j | j in s.bot.jobs
        ensures j.payload.chatId in order
        ensures Names(Stored(s.bot.db, j.payload.chatId), j.name)
      {
        if j in pre.bot.jobs {
          var c := j.payload.chatId;
          InOrder(order, c);
          if c == owner {
            assert pre.bot.db[c] == Filter(db[c], Upcoming(now)) == p.kept;
          } else {
            assert s.bot.db[c] == pre.bot.db[c];
          }
        } else {
          assert j in p.jobs;
          var m :| 0 <= m < |p.jobs| && p.jobs[m] == j;
          assert j == JobOf(owner, p.kept[m]) && p.kept[m] in s.bot.db[owner];
        }
      }
    }
  }
}

=== FILE: results.dfy ===
/** Optional values and results with an error, used wherever the bot either
    produces a value or raises `ValueError`. */
module Results {

  datatype Option<+T> = None | Some(value: T)

  datatype Result<+T, +E> = Ok(value: T) | Err(error: E)
}

=== FILE: seqs.dfy ===
/** Sequence and map helpers: order-preserving filtering, the list
    comprehension `[x for x in s if p(x)]` that drops out-of-range days and
    hours and past reminders; `list.pop(i)`; and small facts about
    concatenation and map update. */
module Seqs {

  /** The elements of `s` satisfying `p`, in their original order, with
      repetitions kept. */
  function Filter<T(==,!new)>(s: seq<T>, p: T -> bool): (r: seq<T>)
    ensures |r| <= |s|
    ensures forall i :: 0 <= i < |r| ==> p(r[i])
    ensures forall x :: x in r <==> x in s && p(x)
  {
    if |s| == 0 then []
    else
      var rest := Filter(s[1..], p);
      assert s == [s[0]] + s[1..];

      if p(s[0]) then [s[0]] + rest else rest
  }

  /** Filtering a concatenation filters each part: kept elements of `a` come
      before kept elements of `b`. */
  lemma {:induction false} FilterConcat<T(!new)>(a: seq<T>, b: seq<T>, p: T -> bool)
    ensures Filter(a + b, p) == Filter(a, p) + Filter(b, p)
  {
    if |a| > 0 {
      assert (a + b)[0] == a[0];
      assert (a + b)[1..] == a[1..] + b;
      FilterConcat(a[1..], b, p);
    } else {
      assert a + b == b;
    }
  }

  /** Nothing is dropped when every element qualifies. */
  lemma {:induction false} FilterKeepsAll<T(!new)>(s: seq<T>, p: T -> bool)
    requires forall i :: 0 <= i < |s| ==> p(s[i])
    ensures Filter(s, p) == s
  {
    if |s| > 0 {
      FilterKeepsAll(s[1..], p);
    }
  }

  /** Filtering keeps every copy of a qualifying element and no copy of any
      other. */
  lemma {:induction false} FilterMultiset<T(!new)>(s: seq<T>, p: T -> bool, x: T)
    ensures multiset(Filter(s, p))[x] == if p(x) then multiset(s)[x] else 0
  {
    if |s| > 0 {
      FilterMultiset(s[1..], p, x);
      assert s == [s[0]] + s[1..];
      assert multiset(s) == multiset{s[0]} + multiset(s[1..]);
    }
  }

  /** When no element qualifies, nothing is kept. */
  lemma FilterNone<T(!new)>(s: seq<T>, p: T -> bool)
    requires forall i :: 0 <= i < |s| ==> !p(s[i])
    ensures Filter(s, p) == []
  {
  }

  lemma FilterSingle<T(!new)>(x: T, p: T -> bool)
    ensures Filter([x], p) == if p(x) then [x] else []
  {
    assert [x][1..] == [];
  }

  /** Indexing past the first part of a concatenation. */
  lemma AppendAt<T>(a: seq<T>, b: seq<T>, k: int)
    requires 0 <= k < |b|
    ensures (a + b)[|a| + k] == b[k]
  {
  }

  lemma AppendPrefix<T>(a: seq<T>, b: seq<T>)
    ensures (a + b)[..|a|] == a
  {
  }

  lemma AppendAssoc<T>(a: seq<T>, b: seq<T>, c: seq<T>)
    ensures (a + b) + c == a + (b + c)
  {
  }

  /** `s.pop(i)`: `s` without its i-th element, the rest in order. */
  function RemoveAt<T>(s: seq<T>, i: int): (r: seq<T>)
    requires 0 <= i < |s|
    ensures |r| == |s| - 1
    ensures forall k :: 0 <= k < i ==> r[k] == s[k]
    ensures forall k :: i <= k < |r| ==> r[k] == s[k + 1]
  {
    s[..i] + s[i + 1..]
  }

  /** Removing one element keeps every element different from it. */
  lemma RemoveKeeps<T>(s: seq<T>, i: int, x: T)
    requires 0 <= i < |s| && x in s && x != s[i]
    ensures x in RemoveAt(s, i)
  {
    var m :| 0 <= m < |s| && s[m] == x;
    if m < i {
      assert RemoveAt(s, i)[m] == x;
    } else {
      assert RemoveAt(s, i)[m - 1] == x;
    }
  }

  /** The removed element and what is left make up the original multiset. */
  lemma RemoveAtMultiset<T>(s: seq<T>, i: int)
    requires 0 <= i < |s|
    ensures multiset(RemoveAt(s, i)) + multiset{s[i]} == multiset(s)
  {
    assert s == s[..i] + [s[i]] + s[i + 1..];
  }

  /** Writing back the value a key already has leaves a map as it is. */
  lemma UpdateSame<K, V>(m: map<K, V>, k: K, v: V)
    requires k in m && m[k] == v
    ensures m[k := v] == m
  {
  }
}

=== FILE: sorting.dfy ===
/** `list.sort(key=...)` with a string key: Python's sort is stable, so the
    result is the unique ordering by key that keeps equal-key elements in
    their original order. Modelled as insertion sort. */
module Sorting {
  import opened Text
  import opened Seqs

  /** Every pair is in key order (`key(s[i]) <= key(s[j])` for i < j). */
  predicate Sorted<T>(s: seq<T>, key: T -> string) {
    forall i, j :: 0 <= i < j < |s| ==> !StrLess(key(s[j]), key(s[i]))
  }

  /** The elements whose key is `k`. */
  function HasKey<T>(key: T -> string, k: string): T -> bool {
    x => key(x) == k
  }

  /** Insert `x` after every element whose key is not greater than its own. */
  function Insert<T(==,!new)>(x: T, s: seq<T>, key: T -> string): (r: seq<T>)
    ensures multiset(r) == multiset(s) + multiset{x}
    ensures |r| == |s| + 1
    ensures Sorted(s, key) ==> Sorted(r, key)
  {
    if |s| == 0 then [x]
    else if StrLess(key(x), key(s[0])) then
      InsertFrontSorted(x, s, key);
      [x] + s
    else
      var rest := Insert(x, s[1..], key);
      assert s == [s[0]] + s[1..];
      InsertBehindSorted(x, s, key, rest);
      [s[0]] + rest
  }

  lemma InsertFrontSorted<T>(x: T, s: seq<T>, key: T -> string)
    requires |s| > 0 && StrLess(key(x), key(s[0]))
    ensures Sorted(s, key) ==> Sorted([x] + s, key)
  {
    if Sorted(s, key) {
      var r := [x] + s;
      forall i, j | 0 <= i < j < |r|
        ensures !StrLess(key(r[j]), key(r[i]))
      {
        if i == 0 {
          assert r[j] == s[j - 1];
          if j > 1 {
            StrLessTotal(key(s[0]), key(s[j - 1]));
            if key(s[0]) != key(s[j - 1]) {
              StrLessTransitive(key(x), key(s[0]), key(s[j - 1]));
            }
          }
          StrLessAsymmetric(key(x), key(r[j]));
        } else {
          assert r[i] == s[i - 1] && r[j] == s[j - 1];
        }
      }
    }
  }

  lemma InsertBehindSorted<T(!new)>(x: T, s: seq<T>, key: T -> string, rest: seq<T>)
    requires |s| > 0 && !StrLess(key(x), key(s[0]))
    requires multiset(rest) == multiset(s[1..]) + multiset{x}
    requires Sorted(s[1..], key) ==> Sorted(rest, key)
    ensures Sorted(s, key) ==> Sorted([s[0]] + rest, key)
  {
    if Sorted(s, key) {
      var r := [s[0]] + rest;
      assert Sorted(s[1..], key);
      forall i, j | 0 <= i < j < |r|
        ensures !StrLess(key(r[j]), key(r[i]))
      {
        if i == 0 {
          var y := r[j];
          assert y == rest[j - 1] && y in multiset(rest);
          if y != x {
            assert y in multiset(s[1..]);
            var m :| 0 <= m < |s[1..]| && s[1..][m] == y;
            assert s[m + 1] == y;
          }
        } else {
          assert r[i] == rest[i - 1] && r[j] == rest[j - 1];
        }
      }
    }
  }

  /** `sorted(s, key=key)`. */
  function SortBy<T(==,!new)>(s: seq<T>, key: T -> string): (r: seq<T>)
    ensures multiset(r) == multiset(s)
    ensures Sorted(r, key)
  {
    if |s| == 0 then []
    else
      assert s == s[..|s| - 1] + [s[|s| - 1]];
      Insert(s[|s| - 1], SortBy(s[..|s| - 1], key), key)
  }

  /** `x` goes in front of a sorted list whose first key is greater than its
      own, so no element of the list shares its key. */
  lemma InsertFrontStable<T(!new)>(x: T, s: seq<T>, key: T -> string, k: string)
    requires Sorted(s, key) && |s| > 0 && StrLess(key(x), key(s[0]))
    ensures Filter([x] + s, HasKey(key, k)) == Filter(s, HasKey(key, k)) + Filter([x], HasKey(key, k))
  {
    var p := HasKey(key, k);
    FilterConcat([x], s, p);
    if key(x) == k {
      assert Filter(s, p) == [] by {
        forall i | 0 <= i < |s|
          ensures key(s[i]) != k
        {
          StrLessBelowSorted(x, s, key, i);
        }
        FilterNone(s, p);
      }
    } else {
      FilterSingle(x, p);
    }
  }

  /** An element keyed below the head of a sorted list is keyed below all of it. */
  lemma StrLessBelowSorted<T>(x: T, s: seq<T>, key: T -> string, i: int)
    requires Sorted(s, key) && 0 <= i < |s| && StrLess(key(x), key(s[0]))
    ensures key(s[i]) != key(x)
  {
    if i > 0 {
      assert !StrLess(key(s[i]), key(s[0]));
      StrLessTotal(key(s[0]), key(s[i]));
      if key(s[0]) != key(s[i]) {
        StrLessTransitive(key(x), key(s[0]), key(s[i]));
      }
    }
    StrLessIrreflexive(key(x));
  }

  /** Inserting into a sorted list places `x` behind every element with the
      same key. */
  lemma {:induction false} InsertStable<T(!new)>(x: T, s: seq<T>, key: T -> string, k: string)
    requires Sorted(s, key)
    ensures Filter(Insert(x, s, key), HasKey(key, k)) == Filter(s, HasKey(key, k)) + Filter([x], HasKey(key, k))
  {
    var p := HasKey(key, k);
    if |s| == 0 {
      assert Insert(x, s, key) == [x];
    } else if StrLess(key(x), key(s[0])) {
      assert Insert(x, s, key) == [x] + s;
      InsertFrontStable(x, s, key, k);
    } else {
      var rest := Insert(x, s[1..], key);
      assert Insert(x, s, key) == [s[0]] + rest;
      assert Sorted(s[1..], key);
      InsertStable(x, s[1..], key, k);
      FilterConcat([s[0]], rest, p);
      FilterConcat([s[0]], s[1..], p);
      assert [s[0]] + s[1..] == s;
    }
  }

  /** The sort is stable: elements with equal keys keep their relative order. */
  lemma {:induction false} SortStable<T(!new)>(s: seq<T>, key: T -> string, k: string)
    ensures Filter(SortBy(s, key), HasKey(key, k)) == Filter(s, HasKey(key, k))
  {
    if |s| > 0 {
      var pre, last, p := s[..|s| - 1], s[|s| - 1], HasKey(key, k);
      assert pre + [last] == s;
      SortStable(pre, key, k);
      InsertStable(last, SortBy(pre, key), key, k);
      FilterConcat(pre, [last], p);
    }
  }

  /** Inserting an element no smaller than all others appends it. */
  lemma {:induction false} InsertLast<T(!new)>(x: T, s: seq<T>, key: T -> string)
    requires forall i :: 0 <= i < |s| ==> !StrLess(key(x), key(s[i]))
    ensures Insert(x, s, key) == s + [x]
  {
    if |s| > 0 {
      InsertLast(x, s[1..], key);
      assert [s[0]] + (s[1..] + [x]) == s + [x];
    }
  }

  /** Sorting a sorted list leaves it as it is. */
  lemma {:induction false} SortSorted<T(!new)>(s: seq<T>, key: T -> string)
    requires Sorted(s, key)
    ensures SortBy(s, key) == s
  {
    if |s| > 0 {
      var pre, last := s[..|s| - 1], s[|s| - 1];
      assert Sorted(pre, key);
      SortSorted(pre, key);
      InsertLast(last, pre, key);
      assert pre + [last] == s;
    }
  }

  /** Sorting twice gives what sorting once gives. */
  lemma SortIdempotent<T(!new)>(s: seq<T>, key: T -> string)
    ensures SortBy(SortBy(s, key), key) == SortBy(s, key)
  {
    SortSorted(SortBy(s, key), key);
  }
}

=== FILE: stamp.dfy ===
/** The text form of a fire time in the store, `%Y-%m-%d %H:%M:%S`: written by
    `strftime` when a reminder is created and read back by `strptime` when
    reminders are listed and replayed at startup. Every field has a fixed
    width and is zero-padded, so comparing two stamps as strings compares
    the times they denote. */
module Stamp {
  import opened Results
  import opened Text
  import opened Calendar

  lemma Numeral2(s: string)
    requires |s| == 2 && AllDigits(s)
    ensures NumeralValue(s) == DigitValue(s[0]) * 10 + DigitValue(s[1])
  {
    assert s[..1][..0] == [] && s[..1] == [s[0]];
    assert NumeralValue(s[..1]) == DigitValue(s[0]);
  }

  /** `%02d`. */
  function Pad2(n: int): (s: string)
    requires 0 <= n <= 99
    ensures |s| == 2 && AllDigits(s) && NumeralValue(s) == n
  {
    var s := [DigitChar(n / 10), DigitChar(n % 10)];
    Numeral2(s);
    s
  }

  lemma Numeral4(s: string)
    requires |s| == 4 && AllDigits(s)
    ensures NumeralValue(s) == NumeralValue(s[..2]) * 100 + NumeralValue(s[2..])
  {
    var d2, d3 := DigitValue(s[2]), DigitValue(s[3]);
    assert s[..3][..2] == s[..2] && s[..3][2] == s[2];
    assert NumeralValue(s[..3]) == NumeralValue(s[..2]) * 10 + d2;
    assert NumeralValue(s) == NumeralValue(s[..3]) * 10 + d3;
    Numeral2(s[2..]);
    assert NumeralValue(s[2..]) == d2 * 10 + d3;
  }

  /** `%04d`, the width of `%Y` for the years `datetime` supports. */
  function Pad4(n: int): (s: string)
    requires 0 <= n <= 9999
    ensures |s| == 4 && AllDigits(s) && NumeralValue(s) == n
  {
    var s := Pad2(n / 100) + Pad2(n % 100);
    assert s[..2] == Pad2(n / 100) && s[2..] == Pad2(n % 100);
    Numeral4(s);
    s
  }

  /** `t.strftime('%Y-%m-%d %H:%M:%S')`. */
  function Format(t: DateTime): (s: string)
    requires Valid(t)
    ensures |s| == 19
  {
    Pad4(t.year) + ("-" + (Pad2(t.month) + ("-" + (Pad2(t.day) + (" " + (Pad2(t.hour)
      + (":" + (Pad2(t.minute) + (":" + Pad2(t.second))))))))))
  }

  /** `datetime.strptime(s, '%Y-%m-%d %H:%M:%S')` on the fixed-width form the
      bot writes; None is the `ValueError` for anything else, including a
      well-shaped stamp naming a day that does not exist. */
  function Parse(s: string): (r: Option<DateTime>)
    ensures r.Some? ==> Valid(r.value)
  {
    if && |s| == 19
       && s[4] == '-' && s[7] == '-' && s[10] == ' ' && s[13] == ':' && s[16] == ':'
       && AllDigits(s[0..4]) && AllDigits(s[5..7]) && AllDigits(s[8..10])
       && AllDigits(s[11..13]) && AllDigits(s[14..16]) && AllDigits(s[17..19])
    then
      Make(NumeralValue(s[0..4]), NumeralValue(s[5..7]), NumeralValue(s[8..10]),
           NumeralValue(s[11..13]), NumeralValue(s[14..16]), NumeralValue(s[17..19]))
    else
      None
  }

  /** Where each field of a formatted stamp sits. */
  lemma FormatLayout(t: DateTime)
    requires Valid(t)
    ensures var s := Format(t);
            && s[0..4] == Pad4(t.year) && s[5..7] == Pad2(t.month) && s[8..10] == Pad2(t.day)
            && s[11..13] == Pad2(t.hour) && s[14..16] == Pad2(t.minute) && s[17..19] == Pad2(t.second)
            && s[4] == '-' && s[7] == '-' && s[10] == ' ' && s[13] == ':' && s[16] == ':'
  {
    var s := Format(t);
    var r5 := Pad2(t.minute) + (":" + Pad2(t.second));
    var r4 := Pad2(t.hour) + (":" + r5);
    var r3 := Pad2(t.day) + (" " + r4);
    var r2 := Pad2(t.month) + ("-" + r3);
    assert s == Pad4(t.year) + ("-" + r2);
    assert s[5..] == r2;
    assert r2[3..] == r3 && s[8..] == r3;
    assert r3[3..] == r4 && s[11..] == r4;
    assert r4[3..] == r5 && s[14..] == r5;
    assert r5[3..] == Pad2(t.second) && s[17..] == Pad2(t.second);
  }

  /** Reading back a written stamp gives the time that was written. */
  lemma ParseFormat(t: DateTime)
    requires Valid(t)
    ensures Parse(Format(t)) == Some(t)
  {
    FormatLayout(t);
  }

  lemma DigitRoundTrip(c: char)
    requires IsDigit(c)
    ensures DigitChar(DigitValue(c)) == c
  {
  }

  lemma Pad2OfDigits(s: string)
    requires |s| == 2 && AllDigits(s)
    ensures NumeralValue(s) <= 99 && Pad2(NumeralValue(s)) == s
  {
    Numeral2(s);
    var v := NumeralValue(s);
    assert v / 10 == DigitValue(s[0]) && v % 10 == DigitValue(s[1]);
    DigitRoundTrip(s[0]);
    DigitRoundTrip(s[1]);
  }

  lemma Pad4OfDigits(s: string)
    requires |s| == 4 && AllDigits(s)
    ensures NumeralValue(s) <= 9999 && Pad4(NumeralValue(s)) == s
  {
    Numeral4(s);
    Pad2OfDigits(s[..2]);
    Pad2OfDigits(s[2..]);
    var hi, lo := NumeralValue(s[..2]), NumeralValue(s[2..]);
    var v := NumeralValue(s);
    assert v == hi * 100 + lo;
    assert v / 100 == hi && v % 100 == lo;
    assert Pad4(v) == Pad2(hi) + Pad2(lo);
    assert s == s[..2] + s[2..];
  }

  /** A stamp that reads back is exactly the text the bot would write for that
      time: the format has one spelling per time. */
  lemma FormatParse(s: string)
    requires Parse(s).Some?
    ensures Format(Parse(s).value) == s
  {
    var t := Parse(s).value;
    Pad4OfDigits(s[0..4]);
    Pad2OfDigits(s[5..7]);
    Pad2OfDigits(s[8..10]);
    Pad2OfDigits(s[11..13]);
    Pad2OfDigits(s[14..16]);
    Pad2OfDigits(s[17..19]);
    FormatLayout(t);
    var f := Format(t);
    forall k | 0 <= k < 19
      ensures f[k] == s[k]
    {
      if k < 4 { assert f[0..4][k] == s[0..4][k]; }
      else if 5 <= k < 7 { assert f[5..7][k - 5] == s[5..7][k - 5]; }
      else if 8 <= k < 10 { assert f[8..10][k - 8] == s[8..10][k - 8]; }
      else if 11 <= k < 13 { assert f[11..13][k - 11] == s[11..13][k - 11]; }
      else if 14 <= k < 16 { assert f[14..16][k - 14] == s[14..16][k - 14]; }
      else if 17 <= k < 19 { assert f[17..19][k - 17] == s[17..19][k - 17]; }
    }
  }

  // ---------------------------------------------------------------------------
  // Ordering

  lemma Pad2Order(x: int, y: int)
    requires 0 <= x <= 99 && 0 <= y <= 99
    ensures StrLess(Pad2(x), Pad2(y)) <==> x < y
  {
    var a, b := Pad2(x), Pad2(y);
    StrLessConcat([a[0]], [a[1]], [b[0]], [b[1]]);
    assert a == [a[0]] + [a[1]] && b == [b[0]] + [b[1]];
    assert [a[0]][1..] == [] && [b[0]][1..] == [];
    assert [a[1]][1..] == [] && [b[1]][1..] == [];
  }

  lemma Pad4Order(x: int, y: int)
    requires 0 <= x <= 9999 && 0 <= y <= 9999
    ensures StrLess(Pad4(x), Pad4(y)) <==> x < y
  {
    StrLessConcat(Pad2(x / 100), Pad2(x % 100), Pad2(y / 100), Pad2(y % 100));
    Pad2Order(x / 100, y / 100);
    Pad2Order(x % 100, y % 100);
    assert Pad2(x / 100) == Pad2(y / 100) <==> x / 100 == y / 100;
  }

  /** Comparing `x<sep>rest` with `y<sep>rest'` for pieces of equal width. */
  lemma FieldThen(x: string, sep: char, ra: string, y: string, rb: string)
    requires |x| == |y|
    ensures StrLess(x + ([sep] + ra), y + ([sep] + rb)) <==> StrLess(x, y) || (x == y && StrLess(ra, rb))
  {
    StrLessConcat(x, [sep] + ra, y, [sep] + rb);
    StrLessConcat([sep], ra, [sep], rb);
    StrLessIrreflexive([sep]);
  }

  /** String order on written stamps is time order: sorting the stored strings
      sorts the reminders chronologically. */
  lemma FormatOrder(a: DateTime, b: DateTime)
    requires Valid(a) && Valid(b)
    ensures StrLess(Format(a), Format(b)) <==> Before(a, b)
  {
    var a5 := Pad2(a.minute) + (":" + Pad2(a.second));
    var b5 := Pad2(b.minute) + (":" + Pad2(b.second));
    var a4 := Pad2(a.hour) + (":" + a5);
    var b4 := Pad2(b.hour) + (":" + b5);
    var a3 := Pad2(a.day) + (" " + a4);
    var b3 := Pad2(b.day) + (" " + b4);
    var a2 := Pad2(a.month) + ("-" + a3);
    var b2 := Pad2(b.month) + ("-" + b3);
    assert Format(a) == Pad4(a.year) + ("-" + a2);
    assert Format(b) == Pad4(b.year) + ("-" + b2);
    FieldThen(Pad4(a.year), '-', a2, Pad4(b.year), b2);
    FieldThen(Pad2(a.month), '-', a3, Pad2(b.month), b3);
    FieldThen(Pad2(a.day), ' ', a4, Pad2(b.day), b4);
    FieldThen(Pad2(a.hour), ':', a5, Pad2(b.hour), b5);
    FieldThen(Pad2(a.minute), ':', Pad2(a.second), Pad2(b.minute), Pad2(b.second));
    Pad4Order(a.year, b.year);
    Pad2Order(a.month, b.month);
    Pad2Order(a.day, b.day);
    Pad2Order(a.hour, b.hour);
    Pad2Order(a.minute, b.minute);
    Pad2Order(a.second, b.second);
    assert Pad4(a.year) == Pad4(b.year) <==> a.year == b.year;
    assert Pad2(a.month) == Pad2(b.month) <==> a.month == b.month;
    assert Pad2(a.day) == Pad2(b.day) <==> a.day == b.day;
    assert Pad2(a.hour) == Pad2(b.hour) <==> a.hour == b.hour;
    assert Pad2(a.minute) == Pad2(b.minute) <==> a.minute == b.minute;
  }

  /** Distinct times are written as distinct stamps. */
  lemma FormatInjective(a: DateTime, b: DateTime)
    requires Valid(a) && Valid(b) && Format(a) == Format(b)
    ensures a == b
  {
    ParseFormat(a);
    ParseFormat(b);
  }
}

=== FILE: text.dfy ===
/** The string and integer builtins the bot applies to user input and to stored
    stamps: `str.strip()`, `str.split(sep)`, `int(text)`, `str(n)` and the
    ordering of strings. */
module Text {
  import opened Results

  /** ASCII whitespace as `str.strip()` sees it: tab, line feed, vertical
      tab, form feed, carriage return, the separators 0x1c..0x1f and space. */
  predicate IsSpace(c: char) {
    var k := c as int;
    k == 32 || 9 <= k <= 13 || 28 <= k <= 31
  }

  /** ASCII whitespace as `int()` skips it around an ASCII numeral: the same
      without the separators 0x1c..0x1f. */
  predicate IsIntSpace(c: char)
    ensures IsIntSpace(c) ==> IsSpace(c)
  {
    var k := c as int;
    k == 32 || 9 <= k <= 13
  }

  predicate IsDigit(c: char) {
    '0' <= c <= '9'
  }

  function DigitValue(c: char): (d: int)
    requires IsDigit(c)
    ensures 0 <= d <= 9
  {
    c as int - '0' as int
  }

  function DigitChar(d: int): (c: char)
    requires 0 <= d <= 9
    ensures IsDigit(c) && DigitValue(c) == d
  {
    (d + '0' as int) as char
  }

  predicate AllDigits(s: string) {
    forall i :: 0 <= i < |s| ==> IsDigit(s[i])
  }

  /** A non-empty run of decimal digits. */
  predicate IsNumeral(s: string) {
    |s| > 0 && AllDigits(s)
  }

  /** The value of a run of decimal digits, leading zeros allowed. */
  function NumeralValue(s: string): nat
    requires AllDigits(s)
  {
    if |s| == 0 then 0 else NumeralValue(s[..|s| - 1]) * 10 + DigitValue(s[|s| - 1])
  }

  // ---------------------------------------------------------------------------
  // str.strip()

  function StripLeft(s: string, sp: char -> bool): (r: string)
    ensures |r| <= |s| && r == s[|s| - |r|..]
    ensures forall i :: 0 <= i < |s| - |r| ==> sp(s[i])
    ensures |r| > 0 ==> !sp(r[0])
  {
    if |s| > 0 && sp(s[0]) then StripLeft(s[1..], sp) else s
  }

  function StripRight(s: string, sp: char -> bool): (r: string)
    ensures |r| <= |s| && r == s[..|r|]
    ensures forall i :: |r| <= i < |s| ==> sp(s[i])
    ensures |r| > 0 ==> !sp(r[|r| - 1])
  {
    if |s| > 0 && sp(s[|s| - 1]) then StripRight(s[..|s| - 1], sp) else s
  }

  /** The number of characters satisfying `sp` that a trim removes at the front. */
  function Lead(s: string, sp: char -> bool): (n: nat)
    ensures n <= |s|
  {
    |s| - |StripLeft(s, sp)|
  }

  /** The middle of `s` with the surrounding runs of `sp` characters removed. */
  function Trim(s: string, sp: char -> bool): (r: string)
    ensures |r| > 0 ==> !sp(r[0]) && !sp(r[|r| - 1])
    ensures Lead(s, sp) + |r| <= |s| && r == s[Lead(s, sp)..Lead(s, sp) + |r|]
    ensures forall k :: 0 <= k < Lead(s, sp) ==> sp(s[k])
    ensures forall k :: Lead(s, sp) + |r| <= k < |s| ==> sp(s[k])
  {
    StripLayout(s, StripLeft(s, sp), StripRight(StripLeft(s, sp), sp), sp);
    StripRight(StripLeft(s, sp), sp)
  }

  /** `s.strip()`: the middle of `s` with the surrounding whitespace removed. */
  function Strip(s: string): (r: string)
    ensures |r| > 0 ==> !IsSpace(r[0]) && !IsSpace(r[|r| - 1])
    ensures Lead(s, IsSpace) + |r| <= |s| && r == s[Lead(s, IsSpace)..Lead(s, IsSpace) + |r|]
    ensures forall k :: 0 <= k < Lead(s, IsSpace) ==> IsSpace(s[k])
    ensures forall k :: Lead(s, IsSpace) + |r| <= k < |s| ==> IsSpace(s[k])
  {
    Trim(s, IsSpace)
  }

  /** `r` cut from the front of `l`, itself cut from the back of `s`, with
      only `sp` characters after `r`, sits in `s` at `|s| - |l|` with only
      `sp` characters after it. */
  lemma StripLayout(s: string, l: string, r: string, sp: char -> bool)
    requires |l| <= |s| && l == s[|s| - |l|..]
    requires |r| <= |l| && r == l[..|r|]
    requires forall i :: |r| <= i < |l| ==> sp(l[i])
    ensures |s| - |l| + |r| <= |s| && r == s[|s| - |l|..|s| - |l| + |r|]
    ensures forall k :: |s| - |l| + |r| <= k < |s| ==> sp(s[k])
  {
    var i := |s| - |l|;
    forall k | i + |r| <= k < |s|
      ensures sp(s[k])
    {
      assert s[k] == l[k - i];
    }
  }

  /** A string with no `sp` character at either end is its own trim. */
  lemma TrimKeeps(s: string, sp: char -> bool)
    requires |s| == 0 || (!sp(s[0]) && !sp(s[|s| - 1]))
    ensures Trim(s, sp) == s
  {
  }

  /** A string with no whitespace at either end is its own strip. */
  lemma StripKeeps(s: string)
    requires |s| == 0 || (!IsSpace(s[0]) && !IsSpace(s[|s| - 1]))
    ensures Strip(s) == s
  {
    TrimKeeps(s, IsSpace);
  }

  // ---------------------------------------------------------------------------
  // str.split(sep) and its inverse, sep.join(parts)

  function Join(parts: seq<string>, sep: char): string
    requires |parts| > 0
  {
    if |parts| == 1 then parts[0] else parts[0] + [sep] + Join(parts[1..], sep)
  }

  /** `s.split(sep)`: the pieces between separators, empty pieces included. */
  function Split(s: string, sep: char): (parts: seq<string>)
    ensures |parts| > 0
    ensures forall i :: 0 <= i < |parts| ==> sep !in parts[i]
  {
    if |s| == 0 then [""]
    else
      var rest := Split(s[1..], sep);
      if s[0] == sep then
        assert ([""] + rest)[1..] == rest;
        [""] + rest
      else
        var parts := [[s[0]] + rest[0]] + rest[1..];
        assert parts[1..] == rest[1..];
        parts
  }

  /** Joining the pieces back with the separator gives the string that was
      split. */
  lemma {:induction false} JoinSplit(s: string, sep: char)
    ensures Join(Split(s, sep), sep) == s
  {
    if |s| > 0 {
      var rest := Split(s[1..], sep);
      JoinSplit(s[1..], sep);
      if s[0] == sep {
        SplitSep(sep, s[1..]);
        assert Split(s, sep) == [""] + rest;
        assert ([""] + rest)[1..] == rest;
      } else {
        SplitCons(s[0], sep, s[1..]);
        var parts := [[s[0]] + rest[0]] + rest[1..];
        assert Split(s, sep) == parts && parts[1..] == rest[1..];
        if |rest| == 1 {
          assert rest == [rest[0]];
        } else {
          assert rest == [rest[0]] + rest[1..];
          assert Join(rest, sep) == rest[0] + [sep] + Join(rest[1..], sep);
        }
      }
      assert [s[0]] + s[1..] == s;
    }
  }

  /** A leading separator starts with an empty piece. */
  lemma SplitSep(sep: char, t: string)
    ensures Split([sep] + t, sep) == [""] + Split(t, sep)
  {
    assert ([sep] + t)[1..] == t;
  }

  /** A leading character other than the separator joins the first piece. */
  lemma SplitCons(c: char, sep: char, t: string)
    requires c != sep
    ensures Split([c] + t, sep) == [[c] + Split(t, sep)[0]] + Split(t, sep)[1..]
  {
    assert ([c] + t)[1..] == t;
  }

  /** Splitting at the first separator. */
  lemma SplitFirst(x: string, sep: char, y: string)
    requires sep !in x
    ensures Split(x + [sep] + y, sep) == [x] + Split(y, sep)
  {
    if |x| == 0 {
      assert x + [sep] + y == [sep] + y;
      SplitSep(sep, y);
    } else {
      var t := x[1..] + [sep] + y;
      assert x + [sep] + y == [x[0]] + t;
      SplitFirst(x[1..], sep, y);
      SplitCons(x[0], sep, t);
      assert [x[0]] + x[1..] == x;
    }
  }

  /** A piece without the separator splits to itself. */
  lemma SplitNone(x: string, sep: char)
    requires sep !in x
    ensures Split(x, sep) == [x]
  {
    if |x| > 0 {
      SplitNone(x[1..], sep);
      assert [x[0]] + x[1..] == x;
    }
  }

  /** Split undoes Join whenever no piece holds the separator. */
  lemma {:induction false} SplitJoin(parts: seq<string>, sep: char)
    requires |parts| > 0
    requires forall i :: 0 <= i < |parts| ==> sep !in parts[i]
    ensures Split(Join(parts, sep), sep) == parts
  {
    if |parts| == 1 {
      SplitNone(parts[0], sep);
    } else {
      SplitJoin(parts[1..], sep);
      SplitFirst(parts[0], sep, Join(parts[1..], sep));
      assert [parts[0]] + parts[1..] == parts;
    }
  }

  /** Every character of a join is the separator or a character of a piece,
      so a property of all those characters holds of the whole join. */
  lemma {:induction false} JoinChars(parts: seq<string>, sep: char, p: char -> bool)
    requires |parts| > 0
    requires p(sep)
    requires forall i, k :: 0 <= i < |parts| && 0 <= k < |parts[i]| ==> p(parts[i][k])
    ensures forall k :: 0 <= k < |Join(parts, sep)| ==> p(Join(parts, sep)[k])
  {
    if |parts| > 1 {
      JoinChars(parts[1..], sep, p);
      var s := Join(parts, sep);
      var rest := Join(parts[1..], sep);
      assert s == parts[0] + [sep] + rest;
      forall k | 0 <= k < |s|
        ensures p(s[k])
      {
        if k < |parts[0]| {
          assert s[k] == parts[0][k];
        } else if k == |parts[0]| {
          assert s[k] == sep;
        } else {
          assert s[k] == rest[k - |parts[0]| - 1];
        }
      }
    } else {
      assert forall k :: 0 <= k < |parts[0]| ==> p(parts[0][k]);
    }
  }

  // ---------------------------------------------------------------------------
  // str(n) and int(text)

  /** The decimal digits of a natural number, without leading zeros. */
  function Digits(n: nat): (s: string)
    ensures IsNumeral(s)
  {
    if n < 10 then [DigitChar(n)] else Digits(n / 10) + [DigitChar(n % 10)]
  }

  /** `str(n)`. */
  function Decimal(n: int): string {
    if n < 0 then "-" + Digits(-n) else Digits(n)
  }

  /** `int(text)`: optional surrounding whitespace (the kind `int()` skips,
      not the separators `str.strip()` also removes), an optional sign, then at
      least one decimal digit; anything else is a `ValueError` (None). */
  function ParseInt(text: string): (r: Option<int>)
    ensures r.Some? ==> exists k :: 0 <= k < |text| && IsDigit(text[k])
  {
    var s := Trim(text, IsIntSpace);
    if |s| > 0 && (s[0] == '+' || s[0] == '-') then
      if IsNumeral(s[1..]) then
        assert IsDigit(s[1..][0]);
        var magnitude: int := NumeralValue(s[1..]);
        Some(if s[0] == '-' then -magnitude else magnitude)
      else None
    else if IsNumeral(s) then
      assert IsDigit(s[0]);
      Some(NumeralValue(s))
    else None
  }

  lemma {:induction false} NumeralOfDigits(n: nat)
    ensures NumeralValue(Digits(n)) == n
  {
    if n >= 10 {
      NumeralOfDigits(n / 10);
      var s := Digits(n);
      assert s[..|s| - 1] == Digits(n / 10);
    }
  }

  /** `int(str(n)) == n`. */
  lemma ParseIntDecimal(n: int)
    ensures ParseInt(Decimal(n)) == Some(n)
  {
    var s := Decimal(n);
    assert forall k :: 0 <= k < |s| ==> !IsIntSpace(s[k]);
    TrimKeeps(s, IsIntSpace);
    if n < 0 {
      assert s[1..] == Digits(-n);
      NumeralOfDigits(-n);
    } else {
      NumeralOfDigits(n);
    }
  }

  /** A character that is neither whitespace `int()` skips, a sign nor a digit
      makes `int()` fail; the separators 0x1c..0x1f included, wherever they are. */
  lemma ParseIntRejects(text: string, k: int)
    requires 0 <= k < |text|
    requires !IsIntSpace(text[k]) && !IsDigit(text[k]) && text[k] != '+' && text[k] != '-'
    ensures ParseInt(text) == None
  {
    var s := Trim(text, IsIntSpace);
    var i := Lead(text, IsIntSpace);
    assert i <= k < i + |s|;
    assert s[k - i] == text[k];
    if |s| > 0 && (s[0] == '+' || s[0] == '-') {
      assert s[1..][k - i - 1] == text[k];
    }
  }

  // ---------------------------------------------------------------------------
  // String ordering, as Python compares str values

  /** Lexicographic order by code point; a proper prefix comes first. */
  predicate StrLess(a: string, b: string) {
    if |a| == 0 then |b| > 0
    else if |b| == 0 then false
    else if a[0] != b[0] then a[0] < b[0]
    else StrLess(a[1..], b[1..])
  }

  lemma {:induction false} StrLessIrreflexive(a: string)
    ensures !StrLess(a, a)
  {
    if |a| > 0 {
      StrLessIrreflexive(a[1..]);
    }
  }

  lemma {:induction false} StrLessTotal(a: string, b: string)
    ensures a == b || StrLess(a, b) || StrLess(b, a)
  {
    if |a| > 0 && |b| > 0 && a[0] == b[0] {
      StrLessTotal(a[1..], b[1..]);
      if a[1..] == b[1..] {
        assert a == [a[0]] + a[1..] && b == [b[0]] + b[1..];
      }
    }
  }

  lemma {:induction false} StrLessTransitive(a: string, b: string, c: string)
    requires StrLess(a, b) && StrLess(b, c)
    ensures StrLess(a, c)
  {
    if |a| > 0 && |b| > 0 && |c| > 0 && a[0] == b[0] && b[0] == c[0] {
      StrLessTransitive(a[1..], b[1..], c[1..]);
    }
  }

  lemma StrLessAsymmetric(a: string, b: string)
    requires StrLess(a, b)
    ensures !StrLess(b, a)
  {
    if StrLess(b, a) {
      StrLessTransitive(a, b, a);
      StrLessIrreflexive(a);
    }
  }

  /** Comparing two strings that start with pieces of equal length compares the
      pieces first and the rest only on a tie. */
  lemma {:induction false} StrLessConcat(a1: string, a2: string, b1: string, b2: string)
    requires |a1| == |b1|
    ensures StrLess(a1 + a2, b1 + b2) <==> StrLess(a1, b1) || (a1 == b1 && StrLess(a2, b2))
  {
    if |a1| == 0 {
      assert a1 + a2 == a2 && b1 + b2 == b2;
    } else {
      assert (a1 + a2)[0] == a1[0] && (b1 + b2)[0] == b1[0];
      assert (a1 + a2)[1..] == a1[1..] + a2;
      assert (b1 + b2)[1..] == b1[1..] + b2;
      StrLessConcat(a1[1..], a2, b1[1..], b2);
      if a1[0] == b1[0] {
        assert a1 == b1 <==> a1[1..] == b1[1..] by {
          assert a1 == [a1[0]] + a1[1..] && b1 == [b1[0]] + b1[1..];
        }
      }
    }
  }
}
